=== FILE: README.md ===
# node-scrape core, modelled in Dafny

node-scrape loads web pages and turns them into JSON records. A
configuration names the page URLs, and optionally a parameter map whose
values are substituted into `:name` placeholders of the URLs. It also names
a list of *collections*. A collection may have a `group` selector. Its
`elements` each give a query, an optional attribute, a filter and a format.
Its optional `each` map adds static or computed fields to every record.

This project models the pure computation of `index.js`:

- how a URL list and a parameter map expand into the pages to load
  (`collectUrls`, `permutateUrls`, `extractParams`, `permutations`);
- how one matched node becomes a value (`extract`, `trim`, `filter`,
  `format`);
- how matches accumulate into a group's data (`parseElement`, `parseGroup`);
- how groups become the stored collection (`parse`, `makeCollection`,
  `each`), and how the collections of a page fill the scraped object.

Modules, in dependency order:

| file | module | contents |
|---|---|---|
| results.dfy | `Results` | `Option`, `Result`, and the three errors the code can raise: a JavaScript `TypeError`, the `SyntaxError` of `new RegExp`, and the "Illegal format" error of makeCollection |
| seqs.dfy | `Seqs` | order-preserving selection, distinctness, the row-major product of two sequences |
| values.dfy | `Values` | JavaScript values and objects; an object is an ordered list of properties |
| strings.dfy | `JsStrings` | `indexOf`, first-occurrence `replace` with `$` substitution patterns, `trim` |
| environment.dfy | `Environment` | DOM nodes and the `Host` record of collaborators the code calls but that are not modelled |
| permutations.dfy | `Cartesian` | `Scraper.permutations` |
| urls.dfy | `Urls` | `extractParams`, `permutateUrls`, `collectUrls` |
| pipeline.dfy | `Pipeline` | `extract`, `trim`, `filter`, `format` |
| collection.dfy | `Collection` | `makeCollection`, `each` |
| scraper.dfy | `Scraper` | `parseElement`, `parseGroup`, `parse`, and the collections loop of a loaded page |

Collaborators the code calls are fields of `Environment.Host`:

- `find`: the jQuery query, giving the matched nodes in document order;
- `exec`: `RegExp.prototype.exec`;
- `compiles`: whether `new RegExp(p)` accepts a pattern string p;
- `toNumber` and `parseDate`: `Number(…)` and `new Date(…)`;
- `numberToString` and `dateToString`: a value's string form when it is
  put into a URL;
- `nest`: `flatnest.nest`.

They are total functions that the proofs know nothing about. Every property
below holds whatever they compute.

A thrown exception is an `Err` result. These throws of the code have an
error path in the model rather than a precondition:

- an empty parameter map makes `permutations([])` read `args[0].length`;
- `trim` is called on the `undefined` of a missing attribute;
- `new RegExp` rejects a filter string that is not a regular expression
  (index.js:289), a `SyntaxError`;
- makeCollection meets fields of unequal length, or a null field.

parseElement alone can also throw: `push` on a field that holds a truthy
non-array value, and Scraper.Push models that `TypeError`. Within parse it
cannot happen. The keys of the `elements` object are distinct, and
`groupData` starts out empty for every group (index.js:64). So each field
is written by its own element only, and Scraper.ParseElementsFails shows
that a group then fails only through a match's pipeline.

Two kinds of throw are not modelled (see "Left out"): an exception raised
inside a user-supplied filter, format or `each` function, and jQuery's
error for a selector that is not valid syntax, since `find` is total.

Where the comments of index.js and its code disagree, the model follows
the code:

- The comment at index.js:83-85 names a "processors" step between filter
  and format. The code (index.js:97-101) has no such step.
- The comment at index.js:345-346 names the formats 'number' and 'data'.
  The code handles 'number' and 'date' (index.js:357-364).
- The example in the comment at index.js:380-381 does not match what
  `permutations` returns. The function walks each list from its last
  element down, so `[[1,2],[3]]` gives `[[2,3],[1,3]]`
  (`Cartesian.PermutationsExample`).

Some behaviour of the code that the model keeps:

- A format function is applied only to truthy string data, like the named
  formats (index.js:348-354).
- An empty filter pattern or an empty format name is falsy and passes the
  data through.
- makeCollection measures a string field by its number of characters and
  iterates over them. Once an established length is 0, it is replaced by
  the next field's length (`length = length || values.length`).

## Model

| member | source | states |
|---|---|---|
| Results.MessageNamesKey | index.js:321-323 | the "Illegal format" message ends with the name of the offending field |
| Seqs.Product | index.js:194-210 | the nested loop over URLs and combinations yields one page per pair; with m the length of ys, the pair (xs[u], ys[j]) is at position u * m + j |
| Seqs.ProductTwoByTwo | index.js:194-210 | for two URLs and two combinations the order is: first URL with both combinations, then second URL with both |
| Values.EmptyIffNoProperty | index.js:68 | `_.isEmpty` of an object: it has no entries exactly when no key has a value |
| Values.StoreKeys | index.js:58 | assigning a property keeps the key order; a new key goes last |
| JsStrings.IndexOf | index.js:204 | the position `replace` with a string pattern uses: the first occurrence, or none when the pattern does not occur |
| JsStrings.Substitution | index.js:204 | the text that replaces the match, with `$` patterns expanded: a replacement without `$` is inserted literally, and `$&` inserts the matched text |
| JsStrings.ReplaceFirst | index.js:204 | with the pattern absent the string is unchanged; otherwise, whatever the replacement, the text before the first occurrence and the text after it are kept at the two ends of the result |
| JsStrings.ReplaceFirstSpec | index.js:204 | `replace` changes nothing when the pattern is absent; for a replacement without `$`, only the first occurrence is replaced, by the replacement itself |
| JsStrings.Trim | index.js:342 | `trim()` returns the part of the string between its leading and trailing white space; everything removed is white space, and the result neither starts nor ends with white space |
| JsStrings.TrimTrimmed | index.js:342 | a string without white space at either end is returned unchanged |
| Cartesian.Permutations | index.js:383-402 | the result has one entry per combination; the combination with indices ds is at position Rank(ds), the first list's index being the most significant |
| Cartesian.Walk | index.js:387-398 | the recursive walk of `recurse`; it only computes, and its properties are stated by Cartesian.WalkLength and Cartesian.WalkEnumerates |
| Cartesian.WalkLength | index.js:387-398 | the `while (--index > -1)` loop at one level produces `index` blocks, each of the size of the product of the later lists |
| Cartesian.WalkEnumerates | index.js:387-398 | in that loop, block d holds the prefix, then element `index - 1 - d` of the current list, then every combination of the later lists: each list is walked from its last element down |
| Cartesian.PermutationsExactlyChoices | index.js:383-402 | a sequence is among the permutations exactly when it has one entry per list and entry i is taken from list i |
| Cartesian.EmptyListNoCombination | index.js:387-390 | if any list is empty, there are no combinations at all |
| Cartesian.PermutationsExample | index.js:383-402 | `permutations([[1,2],[3]])` is `[[2,3],[1,3]]` |
| Urls.ExtractParams | index.js:214-227 | the keys are the map's keys in property order; each value is the property's array, or a one-element list of a non-array value |
| Urls.ExtractParamsLookup | index.js:218-221 | in a map with distinct keys, values[i] is the list of the value that keys[i] names |
| Urls.ToJsString | index.js:204 | the string form `replace` gives its replacement value: a string is itself, an empty array is empty, a one-element array is its element's string form (empty for null or undefined) |
| Urls.Fill | index.js:201-206 | filling a URL with a combination: what is recorded is the parameter record of Urls.Recorded, whatever the URL's text |
| Urls.FillParameters | index.js:196-206 | filling a URL records each key's value from the combination (undefined past its end), the last occurrence of a repeated key winning; other keys of the record are untouched, and the record's keys are the old keys plus the parameter keys |
| Urls.FillWithoutPlaceholder | index.js:201-205 | a URL in which no `':' + key` placeholder occurs keeps its text whatever the parameters |
| Urls.FillWithoutPlaceholderIf | index.js:196-206 | the same for a page's fresh parameter record, stated as an implication |
| Urls.ColonFreeHasNoPlaceholder | index.js:204 | a URL without `:` contains no placeholder, so it is never changed |
| Urls.Expand | index.js:195-208 | one page of URL and combination: its request parameters are the recorded combination, and a URL without placeholders is kept as it is |
| Urls.PermutateUrls | index.js:183-212 | an empty map is a TypeError. Otherwise the number of pages is the number of URLs times the number of combinations, and the page at u * count + Rank(ds) is URL u filled with combination ds |
| Urls.PageAt | index.js:183-212 | every position of the result is some URL filled with some combination |
| Urls.PageCombination | index.js:183-212 | every page comes from one of the URLs and a combination with one value from each parameter's list |
| Urls.PermutatedParameters | index.js:196-206 | with distinct parameter names, the page of URL u and combination ds records exactly the map's keys, each key bound to the value the combination picks from its list (by PageAt, every page is such a page) |
| Urls.PermutateUrlsExample | index.js:183-212 | `["a/:page","b/:page"]` with `{page: ["1","2"]}` gives a/2, a/1, b/2, b/1, each with its page parameter |
| Urls.CollectUrls | index.js:172-181 | without parameters the URL or URL list is used as is; with parameters the result is that of permutateUrls |
| Pipeline.Extract | index.js:242-270 | an absent or empty attribute or "text" reads the text, "html" the markup, any other name that attribute, which may be missing |
| Pipeline.ExtractDefaultsToText | index.js:246 | no attribute, the empty attribute and "text" all read the node's text |
| Pipeline.ScraperTrim | index.js:341-343 | the result holds no CR, LF or tab and does not start or end with white space. It is the slice of the input without control characters that is left once its leading and trailing white space is removed |
| Pipeline.ScraperTrimIdempotent | index.js:341-343 | trimming twice is trimming once |
| Pipeline.ScraperTrimClean | index.js:341-343 | a string with no control character and no white space at either end is unchanged |
| Pipeline.ScraperTrimJoins | index.js:342 | a tab between two words is removed without leaving a space: the halves join |
| Pipeline.MatchValue | index.js:290-304 | no match gives null; a match without groups gives the whole match, otherwise the first group (undefined when it did not participate) |
| Pipeline.ApplyFilter | index.js:274-305 | falsy data, data that is not a string or a filter not given pass through; a function is applied; a RegExp, or a pattern string that compiles, is executed and yields MatchValue; it fails exactly when a pattern string applied to truthy string data does not compile, with a SyntaxError naming the pattern |
| Pipeline.PatternIsRegExp | index.js:289 | a pattern string that compiles filters exactly as the RegExp built from it without flags |
| Pipeline.NumberText | index.js:359 | the characters kept for "number" are digits and dots, and every digit or dot of the input is kept |
| Pipeline.NumberTextHomomorphism | index.js:359 | removing the other characters works piecewise: the text of a concatenation is the concatenation of the texts, and a single character is kept exactly when it is a digit or a dot, so the kept characters keep their order |
| Pipeline.ApplyFormat | index.js:347-370 | falsy or non-string data and a format not given pass through; a function is applied; "number" converts the digits and dots, "date" parses the text; any other name passes through |
| Pipeline.FormatIdempotent | index.js:356-364 | formatting a value twice with "number" or "date" is formatting it once, since the result is no longer a string |
| Pipeline.ElementValue | index.js:97-101 | one node's value is extract, trim, filter and format in that order; it fails exactly when the attribute is missing (a TypeError) or the filter pattern does not compile (a SyntaxError) |
| Pipeline.PlainElement | index.js:97-101 | without a filter or format, an element yields its trimmed text |
| Pipeline.EmptyTextPassesThrough | index.js:97-101 | text that trims to nothing stays the empty string whatever the filter and format |
| Pipeline.NumberFormatExample | index.js:356-360 | "$1,234.56 USD" formatted as a number is `Number("1234.56")` |
| Collection.FieldColumn | index.js:316-327 | null or undefined has no `length` (TypeError). An array gives its items, a string its characters; other values have no length and no items |
| Collection.WriteColumn | index.js:325-328 | item i is written under the key into record i, creating records as needed; every other key and record is unchanged, and a new key goes last |
| Collection.ZipField | index.js:316-329 | a field whose length differs from the established length fails with the Illegal-format error naming it; otherwise its column is written |
| Collection.ZipFields | index.js:316-329 | the walk over the fields never drops a row, and an Illegal-format error names one of the walked fields |
| Collection.MakeRows | index.js:313-329 | the rows before nesting: none for a group without fields, and an Illegal-format error names one of the group's keys |
| Collection.ZipAligned | index.js:316-329 | when every field has the same positive length, the walk succeeds with one record per index, holding item i of every field |
| Collection.ZipSuccess | index.js:311-329 | for a group whose fields all have length L > 0, makeCollection's rows are L records; record i maps each field's key to its item i and has no other keys |
| Collection.ZipZero | index.js:316-329 | with no length or length 0 established and no rows yet, fields that are all empty arrays or empty strings yield no records |
| Collection.ZipEmpty | index.js:311-329 | a group whose fields all have length 0 makes no records |
| Collection.ZipMismatch | index.js:319-323 | the first field whose length differs from the established positive length is the error |
| Collection.ZeroLengthQuirk | index.js:319 | an empty string field does not fix the length: `{a: "", b: ["x","y"]}` gives two records holding only b |
| Collection.MakeCollection | index.js:311-338 | makeCollection as intended: it fails exactly when building the rows fails, with the same error; otherwise each row is nested with flatnest |
| Collection.MakeCollectionAsWritten | index.js:333-335 | makeCollection as written succeeds only when there are no rows |
| Collection.MakeCollectionAsWrittenFails | index.js:333-335 | whenever the intended makeCollection yields a row, the code as written throws the TypeError of calling `flatnest.next` |
| Collection.MakeCollectionAsWrittenExample | index.js:333-335 | `{a: ["x","y"]}` is collected by the intended function and throws as written |
| Collection.EachRow | index.js:231-233 | the `each` entries written into one record in property order; it only computes, and its properties are stated by the lemmas below |
| Collection.EachRowSpec | index.js:229-237 | keys not configured keep their values; a static value whose key is not configured again later is the key's final value; the record's keys are its old keys plus the configured ones |
| Collection.EachRowFrame | index.js:231-233 | a key that no entry configures keeps its value |
| Collection.EachRowKeys | index.js:231-233 | the record's keys are its old keys plus the configured ones |
| Collection.EachRowSplit | index.js:231-233 | writing the entries is writing the first c of them and then the rest |
| Collection.EachRowLast | index.js:232 | a key configured for the last time at entry c holds that entry's value, a function being applied to the record with the earlier entries already written |
| Collection.Each | index.js:229-237 | every record is processed, in order, with unconfigured keys untouched |
| Collection.EachRowComputed | index.js:232 | a key configured with a function for the last time at entry c holds the function's value for the record with entries 0 to c - 1 written and the request parameters |
| Scraper.Push | index.js:108-109 | push onto a missing or falsy field starts an array, and onto an array extends it; any other value is a TypeError; no other key changes |
| Scraper.Store | index.js:103-113 | an undefined value stores nothing; a single match's value is assigned; several matches push; only pushing onto a truthy non-array fails; no other key changes |
| Scraper.ParseField | index.js:94-116 | the matches of one element stored in order; it only computes, and its properties are stated by Scraper.ParseFieldSingle, Scraper.ParseFieldMultiple and Scraper.ParseFieldMultipleOk |
| Scraper.ParseElement | index.js:86-117 | parseElement; it only computes, and its properties are stated by Scraper.FieldAccumulation |
| Scraper.Defined | index.js:94-116 | the values a field's matches contribute: the pipeline values that are not undefined, at most one per match |
| Scraper.DefinedFails | index.js:97-101 | a field's matches fail exactly when one match's pipeline fails |
| Scraper.ParseFieldMultipleOk | index.js:103-112 | with several matches, a field that is missing or an array is filled without error exactly when every match's pipeline succeeds |
| Scraper.ParseFieldMultiple | index.js:103-110 | with several matches, the field becomes its earlier array followed by the defined values in match order; with no defined value it is left as it was |
| Scraper.ParseFieldSingle | index.js:103-113 | with a single match the field is assigned, not pushed: the last defined value wins, no defined value leaves it as it was, and no other key changes |
| Scraper.ParseFieldMultipleOthers | index.js:107-109 | pushing onto a field changes no other key |
| Scraper.PipeFails | index.js:97-101 | the pipeline fails on some match exactly when some match lacks the attribute or meets a filter pattern that does not compile |
| Scraper.FieldAccumulation | index.js:86-117 | an element fails exactly when one of its matches lacks the attribute or meets a filter pattern that does not compile. No match leaves the group data unchanged, one match stores its value, several store the array of defined values, undefined values are skipped, and no other key changes |
| Scraper.ParseElements | index.js:66 | the elements parsed in property order; it only computes, and its properties are stated by Scraper.ParseElementsFails, Scraper.ParseElementsFields, Scraper.ParseElementsKeys and Scraper.NoMatchesNoFields |
| Scraper.ParseElementsKeys | index.js:66 | walking the elements changes no key that no element names |
| Scraper.ElementStepFails | index.js:86-117 | an element parsed into group data that lacks its key fails exactly when one of its matches lacks the attribute or meets a filter pattern that does not compile |
| Scraper.ElementStep | index.js:86-117 | an element parsed into group data that lacks its key leaves the key as the element's matches decide (nothing, the single value, or the array of defined values) and changes no other key |
| Scraper.ElementKeysTail | index.js:66 | in an `elements` object without repeated keys, the first key does not recur among the rest |
| Scraper.ParseElementsFails | index.js:63-66 | elements with distinct keys, none yet in the group data, fail exactly when some element fails on one of its matches. The `push` TypeError is never reached |
| Scraper.ParseElementsFields | index.js:63-66 | on success, every element's key holds what its own matches contribute: nothing without defined values, the value for a single match, the array of defined values for several |
| Scraper.ParseGroupSpec | index.js:63-81 | a group with distinct element keys fails exactly when some element fails on one of its matches, and without failure it is null exactly when no element has a defined value |
| Scraper.CollectGroupsFails | index.js:41-43 | a collection with distinct element keys fails exactly when some element fails on one of its matches in some group node |
| Scraper.ParseGroup | index.js:63-81 | empty group data is null; otherwise it is returned, nested when the collection has a group selector |
| Scraper.EmptyGroupIsNull | index.js:63-81 | a group in which no element matches anything yields null |
| Scraper.NoMatchesNoFields | index.js:66 | elements that match nothing leave the group data unchanged |
| Scraper.CollectGroups | index.js:43 | `_.toArray($group.map(parseGroup))` gives at most one record per group node. When no group is null, it gives exactly the groups' records in node order. It fails exactly when some group fails |
| Scraper.CollectGroupsRecords | index.js:43 | the group records are exactly the records of the group nodes that produced one, in node order (Scraper.Records, a filter over the parseGroup outcomes) |
| Scraper.RecordsEmpty | index.js:43 | the filter keeps nothing exactly when no group produced a record |
| Scraper.CollectGroupsEmpty | index.js:43-45 | without errors, there are no group records exactly when every group node yielded null |
| Scraper.CollectionRecords | index.js:45-54 | a grouped collection keeps one record per group; an ungrouped one is makeCollection of the single body group, failing exactly when that does, with its error. Record i is base record i with the `each` entries written (base being the groups or makeCollection's rows), and keys `each` does not configure keep their values |
| Scraper.Parse | index.js:38-60 | parse stores the collection's records as an array under its name, in order, only when some group produced data; it fails exactly when a group or the record step fails; nothing else in the scraped object changes |
| Scraper.ParseAllNull | index.js:41-45 | a collection whose every group node yields null leaves the scraped object as it was |
| Scraper.ScrapePage | index.js:147 | the collections parsed one after another; it only computes, and its properties are stated by Scraper.ScrapePageNames |
| Scraper.ScrapePageNames | index.js:147 | after the collections loop, keys that no collection names keep their values |

## Left out

- Loading pages: `scrape`, jsdom, the promise chain, and attaching
  requestParameters to the scraped object (index.js:121-170). This is I/O.
- jQuery selector evaluation, `RegExp.prototype.exec`, `Number(…)`,
  `new Date(…)`, value-to-string conversion and `flatnest.nest`. These are
  uninterpreted fields of `Host`, because they are library code outside
  this file.
- The `console.log` at index.js:56 is output only.
- The functions of an `each` map also receive the collection configuration
  as their second argument (index.js:232). The model passes only the
  record and the request parameters.
- makeCollection on a field that is an object with its own `length` key,
  or an array-like object: lodash treats these as arrays of that length.
  The model treats every non-array, non-string value as having no length.
- JavaScript's ordering of integer-like property names before other keys
  is not modelled: every object keeps insertion order.
- A filter option that is neither a function, a RegExp nor a string (such
  as a number) is not modelled. `new RegExp` would stringify it.
- Urls.CollectUrls: a truthy parameter value that is not an object is not
  modelled. The parameter map is an object or absent. A `src` entry is
  always a URL string. Entries that are objects `{url, requestParameters}`,
  which page loading accepts (index.js:135-136), are not modelled. Without
  parameters collectUrls returns such entries unchanged (index.js:174-177).
  With parameters that have at least one key, `_.clone(url).replace`
  throws a TypeError on them (index.js:197, 204).
- Pipeline.ApplyFilter: a filter function that throws (index.js:285) is
  not modelled. A function filter is a total function of the data.
- Pipeline.ApplyFormat: a format function that throws (index.js:353) is not
  modelled. A function format is a total function of the data.
- Collection.EachRow: an `each` function that throws (index.js:232) is not
  modelled. It is a total function of the record and the request parameters.
- Collection.FieldColumn: lodash's `_.each` visits the own properties of a
  plain-object field, and writes each under the property's name as the row
  index. The model gives such a field no items. A string's length and its
  items are counted in characters, not in the UTF-16 code units of
  JavaScript; the two differ for characters outside the Basic
  Multilingual Plane.
- Scraper.CollectionRecords: an ungrouped collection uses the corrected
  Collection.MakeCollection (see "Findings"). Where the code as written
  throws for a collection with at least one record, the model returns the
  records.
- Scraper.Parse: through Scraper.CollectionRecords, it uses the corrected
  makeCollection, so it stores the records of an ungrouped collection where
  the code as written throws. Scraper.ScrapePage inherits this.
- Collection.MakeRows: lodash's `_.each` walks an object whose own
  `length` property is a non-negative integer by index, from 0 to length - 1,
  rather than by property. A group record with a `length` field is walked
  that way at index.js:316: usually the first read of `undefined.length`
  throws, and `length: 0` gives no records. The model always walks the
  record's properties.
- Urls.ExtractParams: for the same reason, a parameter map with an integer
  `length` property gives the keys `0` to length - 1 at index.js:218. The
  model takes the map's property names.
- Collection.EachRow: likewise, an `each` object with an integer `length`
  property writes the keys `0` to length - 1 at index.js:231. The model
  writes the configured property names.
- Scraper.FieldAccumulation: jQuery throws a syntax error for a selector
  it cannot parse, in `$(collection.group)` (index.js:41) and in
  `find(element.query)` (index.js:88). `Host.find` is total, so the model
  has no such error. Scraper.CollectGroups and Scraper.Parse inherit this:
  their "fails exactly when" is relative to a `find` that never throws.
- Cartesian.Permutations: requires at least one list. The empty list is the
  TypeError case, which Urls.PermutateUrls models as an `Err`.

## Findings

| source | as written | input that shows it | evidently intended | confidence | as-written member | corrected member |
|---|---|---|---|---|---|---|
| index.js:333-335 | every record of an ungrouped collection is passed to `flatnest.next`, which flatnest does not provide, so the call throws a TypeError | an ungrouped collection whose elements yield `{a: ["x","y"]}` | `flatnest.nest(value)`, as the comment above the loop and parseGroup's own nesting (index.js:76) describe | high, not executed | Collection.MakeCollectionAsWritten (shown by Collection.MakeCollectionAsWrittenFails and Collection.MakeCollectionAsWrittenExample) | Collection.MakeCollection |

=== FILE: collection.dfy ===
/** Turning the data of an ungrouped collection into records, and the
    per-record values a collection's `each` option adds. */
module Collection {
  import opened Results
  import opened Seqs
  import opened Values
  import opened Environment

  /** What makeCollection reads of one field's value: its `length` (None
      for undefined) and the items lodash's `each` visits. */
  datatype Column = Column(length: Option<nat>, items: seq<Value>)

  /** An array has its elements; a string is measured by its length and
      visited character by character; other values have no length and
      nothing to visit; reading the length of null or undefined throws. */
  function FieldColumn(v: Value): (r: Result<Column>)
    ensures r.Err? <==> v.Null? || v.Undefined?
    ensures r.Ok? ==> |r.value.items| == (if r.value.length.Some? then r.value.length.value else 0)
    ensures v.Arr? ==> r == Ok(Column(Some(|v.items|), v.items))
    ensures v.Str? ==> r.Ok? && r.value.length == Some(|v.s|)
                       && forall i :: 0 <= i < |v.s| ==> r.value.items[i] == Str([v.s[i]])
    ensures !(v.Null? || v.Undefined? || v.Arr? || v.Str?) ==> r == Ok(Column(None, []))
  {
    match v
    case Null => Err(TypeError("Cannot read properties of null (reading 'length')"))
    case Undefined => Err(TypeError("Cannot read properties of undefined (reading 'length')"))
    case Arr(items) => Ok(Column(Some(|items|), items))
    case Str(s) => Ok(Column(Some(|s|), seq(|s|, i requires 0 <= i < |s| => Str([s[i]]))))
    case _ => Ok(Column(None, []))
  }

  /** Writing one field's items into the rows: row i, created empty when
      it does not exist yet, gets the key set to item i, and no other value
      changes. */
  function WriteColumn(rows: seq<Record>, key: string, items: seq<Value>): (r: seq<Record>)
    ensures |r| == if |items| > |rows| then |items| else |rows|
    ensures forall i :: 0 <= i < |items| ==> r[i].Get(key) == Some(items[i])
    ensures forall i, k :: 0 <= i < |r| && k != key ==> r[i].Get(k) == if i < |rows| then rows[i].Get(k) else None
    ensures forall i :: |items| <= i < |rows| ==> r[i] == rows[i]
    ensures forall i :: 0 <= i < |items| ==>
              r[i].Keys() == var old_ := if i < |rows| then rows[i] else EmptyRecord;
                             if key in old_.Keys() then old_.Keys() else old_.Keys() + [key]
  {
    var n := if |items| > |rows| then |items| else |rows|;
    seq(n, i requires 0 <= i < n =>
      if i < |items| then (if i < |rows| then rows[i] else EmptyRecord).Set(key, items[i]) else rows[i])
  }

  /** The state of the walk over the fields: the established length and the
      rows built so far. */
  datatype Zip = Zip(length: Option<nat>, rows: seq<Record>)

  /** The established length: one still undefined or zero
      is replaced by the current field's. */
  function Established(length: Option<nat>, current: Option<nat>): Option<nat> {
    if length.None? || length == Some(0) then current else length
  }

  /** One field of the walk: a field whose length differs from the
      established one stops it with an error naming the field. */
  function ZipField(z: Zip, e: Entry): (r: Result<Zip>)
    ensures r.Err? ==> (FieldColumn(e.value).Err? && r.error == FieldColumn(e.value).error)
                       || (FieldColumn(e.value).Ok? && r.error == IllegalFormat(e.key)
                           && Established(z.length, FieldColumn(e.value).value.length) != FieldColumn(e.value).value.length)
    ensures r.Ok? ==> FieldColumn(e.value).Ok?
                      && r.value.length == FieldColumn(e.value).value.length
                      && r.value.length == Established(z.length, r.value.length)
                      && r.value.rows == WriteColumn(z.rows, e.key, FieldColumn(e.value).value.items)
  {
    var col :- FieldColumn(e.value);
    var length := Established(z.length, col.length);
    if length != col.length then Err(IllegalFormat(e.key))
    else Ok(Zip(length, WriteColumn(z.rows, e.key, col.items)))
  }

  /** The walk over the fields from a given state, in property order: it
      never drops a row, and an illegal format names one of the fields. */
  function ZipFields(z: Zip, es: seq<Entry>): (r: Result<seq<Record>>)
    ensures r.Ok? ==> |r.value| >= |z.rows|
    ensures r.Err? ==> r.error.TypeError? || (r.error.IllegalFormat? && r.error.key in KeysOf(es))
    decreases |es|
  {
    if |es| == 0 then Ok(z.rows)
    else
      var z' :- ZipField(z, es[0]);
      ZipFields(z', es[1..])
  }

  /** The records of an ungrouped collection before nesting: record i holds
      item i of every field. */
  function MakeRows(data: Record): (r: Result<seq<Record>>)
    ensures |data.entries| == 0 ==> r == Ok([])
    ensures r.Err? ==> r.error.TypeError? || (r.error.IllegalFormat? && r.error.key in data.Keys())
  {
    ZipFields(Zip(None, []), data.entries)
  }

  /** makeCollection as intended: the records with dotted keys nested. */
  function MakeCollection(env: Host, data: Record): (r: Result<seq<Record>>)
    ensures r.Ok? <==> MakeRows(data).Ok?
    ensures r.Err? ==> r.error == MakeRows(data).error
    ensures r.Ok? ==> |r.value| == |MakeRows(data).value|
                      && forall i :: 0 <= i < |r.value| ==> r.value[i] == env.nest(MakeRows(data).value[i])
  {
    var rows :- MakeRows(data);
    Ok(seq(|rows|, i requires 0 <= i < |rows| => env.nest(rows[i])))
  }

  /** makeCollection as written: the nesting step calls `flatnest.next`,
      which flatnest does not define, so any record to nest makes the call
      throw; only a collection without records comes back. */
  function MakeCollectionAsWritten(data: Record): (r: Result<seq<Record>>)
    ensures r.Ok? <==> MakeRows(data) == Ok([])
  {
    var rows :- MakeRows(data);
    if |rows| == 0 then Ok([]) else Err(TypeError("flatnest.next is not a function"))
  }

  /** The as-written nesting step rejects every data set the intended one
      turns into at least one record. */
  lemma MakeCollectionAsWrittenFails(env: Host, data: Record)
    requires MakeCollection(env, data).Ok? && |MakeCollection(env, data).value| > 0
    ensures MakeCollectionAsWritten(data).Err?
    ensures MakeCollectionAsWritten(data).error == TypeError("flatnest.next is not a function")
  {
  }

  /** A single array field of two items: the intended collection has two
      records, the as-written one throws. */
  lemma MakeCollectionAsWrittenExample(env: Host)
    ensures MakeCollection(env, Record([Entry("a", Arr([Str("x"), Str("y")]))])).Ok?
    ensures MakeCollectionAsWritten(Record([Entry("a", Arr([Str("x"), Str("y")]))])).Err?
  {
    var data := Record([Entry("a", Arr([Str("x"), Str("y")]))]);
    var z := ZipField(Zip(None, []), data.entries[0]);
    assert z.Ok? && |z.value.rows| == 2;
    assert data.entries[1..] == [];
  }

  /** Every field is a sequence of the same length L: a field of the state
      passes the walk when it is an array or string of length L. */
  predicate Aligned(es: seq<Entry>, L: nat) {
    forall j :: 0 <= j < |es| ==> (es[j].value.Arr? && |es[j].value.items| == L) || (es[j].value.Str? && |es[j].value.s| == L)
  }

  /** Item i of field j's column. */
  function Item(e: Entry, i: nat): Value
    requires FieldColumn(e.value).Ok?
  {
    var c := FieldColumn(e.value).value;
    if i < |c.items| then c.items[i] else Undefined
  }

  /** Continuing the walk with an established nonzero length L and L rows
      over fields that all have length L succeeds; every row keeps what it
      had for other keys and gets item i of every field. */
  lemma {:induction false} ZipAligned(z: Zip, es: seq<Entry>, L: nat)
    requires L > 0 && z.length == Some(L) && |z.rows| == L && Aligned(es, L)
    requires Distinct(KeysOf(es))
    ensures ZipFields(z, es).Ok?
    ensures |ZipFields(z, es).value| == L
    ensures forall i, j :: 0 <= i < L && 0 <= j < |es| ==>
              FieldColumn(es[j].value).Ok? && ZipFields(z, es).value[i].Get(es[j].key) == Some(Item(es[j], i))
    ensures forall i, k :: 0 <= i < L && k !in KeysOf(es) ==> ZipFields(z, es).value[i].Get(k) == z.rows[i].Get(k)
    decreases |es|
  {
    if |es| > 0 {
      var col := FieldColumn(es[0].value).value;
      assert col.length == Some(L);
      var z' := Zip(Some(L), WriteColumn(z.rows, es[0].key, col.items));
      assert ZipField(z, es[0]) == Ok(z');
      var rest := es[1..];
      assert Aligned(rest, L) by {
        forall j | 0 <= j < |rest|
          ensures (rest[j].value.Arr? && |rest[j].value.items| == L) || (rest[j].value.Str? && |rest[j].value.s| == L)
        {
          assert rest[j] == es[j + 1];
        }
      }
      DistinctTail(es);
      ZipAligned(z', rest, L);
      var out := ZipFields(z', rest).value;
      assert ZipFields(z, es) == ZipFields(z', rest);
      assert ZipFields(z, es).value == out;
      forall i, j | 0 <= i < L && 0 <= j < |es|
        ensures FieldColumn(es[j].value).Ok? && ZipFields(z, es).value[i].Get(es[j].key) == Some(Item(es[j], i))
      {
        if j == 0 {
          assert es[0].key !in KeysOf(rest);
          assert out[i].Get(es[0].key) == z'.rows[i].Get(es[0].key);
          assert z'.rows[i].Get(es[0].key) == Some(col.items[i]);
          assert Item(es[0], i) == col.items[i];
        } else {
          assert rest[j - 1] == es[j];
          assert out[i].Get(rest[j - 1].key) == Some(Item(rest[j - 1], i));
        }
      }
      forall i, k | 0 <= i < L && k !in KeysOf(es)
        ensures out[i].Get(k) == z.rows[i].Get(k)
      {
        assert KeysOf(es) == [es[0].key] + KeysOf(rest);
      }
      assert forall i, j :: 0 <= i < L && 0 <= j < |es| ==> FieldColumn(es[j].value).Ok? && ZipFields(z, es).value[i].Get(es[j].key) == Some(Item(es[j], i));
    }
  }

  /** Without repetitions in the keys, the first key does not recur and the
      rest have no repetitions either. */
  lemma DistinctTail(es: seq<Entry>)
    requires |es| > 0 && Distinct(KeysOf(es))
    ensures KeysOf(es) == [es[0].key] + KeysOf(es[1..])
    ensures es[0].key !in KeysOf(es[1..]) && Distinct(KeysOf(es[1..]))
  {
    var ks := KeysOf(es);
    assert ks == [es[0].key] + KeysOf(es[1..]);
    assert KeysOf(es[1..]) == ks[1..];
    DistinctCons(ks);
  }

  /** Fields that are all sequences of one nonzero length L zip into L
      records, record i holding item i of every field and nothing else. */
  lemma ZipSuccess(data: Record, L: nat)
    requires L > 0 && |data.entries| > 0 && Aligned(data.entries, L) && Distinct(data.Keys())
    ensures MakeRows(data).Ok? && |MakeRows(data).value| == L
    ensures forall i, j :: 0 <= i < L && 0 <= j < |data.entries| ==>
              FieldColumn(data.entries[j].value).Ok?
              && MakeRows(data).value[i].Get(data.entries[j].key) == Some(Item(data.entries[j], i))
    ensures forall i, k :: 0 <= i < L && k !in data.Keys() ==> MakeRows(data).value[i].Get(k).None?
  {
    var es := data.entries;
    var col := FieldColumn(es[0].value).value;
    assert col.length == Some(L);
    var z' := Zip(Some(L), WriteColumn([], es[0].key, col.items));
    assert ZipField(Zip(None, []), es[0]) == Ok(z');
    var rest := es[1..];
    assert Aligned(rest, L) by {
      forall j | 0 <= j < |rest|
        ensures (rest[j].value.Arr? && |rest[j].value.items| == L) || (rest[j].value.Str? && |rest[j].value.s| == L)
      {
        assert rest[j] == es[j + 1];
      }
    }
    DistinctTail(es);
    ZipAligned(z', rest, L);
    var out := ZipFields(z', rest).value;
    assert MakeRows(data) == ZipFields(z', rest);
    forall i, j | 0 <= i < L && 0 <= j < |es|
      ensures FieldColumn(es[j].value).Ok? && out[i].Get(es[j].key) == Some(Item(es[j], i))
    {
      if j > 0 {
        assert rest[j - 1] == es[j];
      } else {
        assert es[0].key !in KeysOf(rest);
      }
    }
    forall i, k | 0 <= i < L && k !in data.Keys()
      ensures out[i].Get(k).None?
    {
      assert k != es[0].key && k !in KeysOf(rest);
    }
  }

  /** With no established length, or a zero one, and no rows yet, fields
      that are all empty arrays or empty strings yield no records. */
  lemma {:induction false} ZipZero(z: Zip, es: seq<Entry>)
    requires z.length.None? || z.length == Some(0)
    requires z.rows == [] && Aligned(es, 0)
    ensures ZipFields(z, es) == Ok([])
    decreases |es|
  {
    if |es| > 0 {
      assert FieldColumn(es[0].value).value == Column(Some(0), []);
      assert WriteColumn([], es[0].key, []) == [];
      assert ZipField(z, es[0]) == Ok(Zip(Some(0), []));
      var rest := es[1..];
      assert Aligned(rest, 0) by {
        forall j | 0 <= j < |rest|
          ensures (rest[j].value.Arr? && |rest[j].value.items| == 0) || (rest[j].value.Str? && |rest[j].value.s| == 0)
        {
          assert rest[j] == es[j + 1];
        }
      }
      ZipZero(Zip(Some(0), []), rest);
    }
  }

  /** A group whose fields are all empty arrays or empty strings makes no
      records. */
  lemma ZipEmpty(data: Record)
    requires Aligned(data.entries, 0)
    ensures MakeRows(data) == Ok([])
  {
    ZipZero(Zip(None, []), data.entries);
  }

  /** Once a nonzero length is established, the first field that does not
      have it stops the walk with an error naming that field. */
  lemma {:induction false} ZipMismatch(z: Zip, es: seq<Entry>, L: nat, m: nat)
    requires L > 0 && z.length == Some(L) && m < |es|
    requires forall j :: 0 <= j < m ==> FieldColumn(es[j].value).Ok? && FieldColumn(es[j].value).value.length == Some(L)
    requires FieldColumn(es[m].value).Ok? && FieldColumn(es[m].value).value.length != Some(L)
    ensures ZipFields(z, es) == Err(IllegalFormat(es[m].key))
    decreases m
  {
    var col := FieldColumn(es[0].value).value;
    if m > 0 {
      var z' := Zip(Some(L), WriteColumn(z.rows, es[0].key, col.items));
      assert ZipField(z, es[0]) == Ok(z');
      var rest := es[1..];
      forall j | 0 <= j < m - 1
        ensures FieldColumn(rest[j].value).Ok? && FieldColumn(rest[j].value).value.length == Some(L)
      {
        assert rest[j] == es[j + 1];
      }
      assert rest[m - 1] == es[m];
      ZipMismatch(z', rest, L, m - 1);
    }
  }

  /** The reset quirk: an empty string fixes no length, so a following array
      of two items is accepted and yields two records without that field. */
  lemma ZeroLengthQuirk()
    ensures MakeRows(Record([Entry("a", Str("")), Entry("b", Arr([Str("x"), Str("y")]))]))
            == Ok([Record([Entry("b", Str("x"))]), Record([Entry("b", Str("y"))])])
  {
    var es := [Entry("a", Str("")), Entry("b", Arr([Str("x"), Str("y")]))];
    var z1 := Zip(Some(0), []);
    assert FieldColumn(es[0].value) == Ok(Column(Some(0), []));
    assert WriteColumn([], "a", []) == [];
    assert ZipField(Zip(None, []), es[0]) == Ok(z1);
    var rows := WriteColumn([], "b", [Str("x"), Str("y")]);
    assert rows == [Record([Entry("b", Str("x"))]), Record([Entry("b", Str("y"))])];
    assert ZipField(z1, es[1]) == Ok(Zip(Some(2), rows));
    assert es[1..][1..] == [];
  }

  /** A value of a collection's `each` option: a constant, or a function of
      the record (as updated so far) and the page's request parameters. */
  datatype EachValue = Static(value: Value) | Computed(derive: (Record, Option<Record>) -> Value)

  function EachResult(ev: EachValue, row: Record, requestParameters: Option<Record>): Value {
    match ev
    case Static(v) => v
    case Computed(derive) => derive(row, requestParameters)
  }

  /** The configured keys written into one record in configuration order;
      a function sees the record with the keys before its own already written. */
  function EachRow(row: Record, config: seq<(string, EachValue)>, requestParameters: Option<Record>): Record
    decreases |config|
  {
    if |config| == 0 then row
    else EachRow(row.Set(config[0].0, EachResult(config[0].1, row, requestParameters)), config[1..], requestParameters)
  }

  /** A key that is not configured keeps its value; a key configured with a
      constant for the last time holds that constant; the record's keys are
      its old ones and the configured ones. */
  lemma EachRowSpec(row: Record, config: seq<(string, EachValue)>, requestParameters: Option<Record>)
    ensures forall k :: (forall c :: 0 <= c < |config| ==> config[c].0 != k) ==> EachRow(row, config, requestParameters).Get(k) == row.Get(k)
    ensures forall c :: 0 <= c < |config| && config[c].1.Static? && (forall d :: c < d < |config| ==> config[d].0 != config[c].0) ==>
              EachRow(row, config, requestParameters).Get(config[c].0) == Some(config[c].1.value)
    ensures forall k :: k in EachRow(row, config, requestParameters).Keys() <==> k in row.Keys() || exists c :: 0 <= c < |config| && config[c].0 == k
  {
    forall k | (forall c :: 0 <= c < |config| ==> config[c].0 != k)
      ensures EachRow(row, config, requestParameters).Get(k) == row.Get(k)
    {
      EachRowFrame(row, config, requestParameters, k);
    }
    forall c | 0 <= c < |config| && config[c].1.Static? && (forall d :: c < d < |config| ==> config[d].0 != config[c].0)
      ensures EachRow(row, config, requestParameters).Get(config[c].0) == Some(config[c].1.value)
    {
      EachRowLast(row, config, requestParameters, c);
    }
    EachRowKeys(row, config, requestParameters);
  }

  /** A key that is not configured keeps its value. */
  lemma {:induction false} EachRowFrame(row: Record, config: seq<(string, EachValue)>, requestParameters: Option<Record>, k: string)
    requires forall c :: 0 <= c < |config| ==> config[c].0 != k
    ensures EachRow(row, config, requestParameters).Get(k) == row.Get(k)
    decreases |config|
  {
    if |config| > 0 {
      var row' := row.Set(config[0].0, EachResult(config[0].1, row, requestParameters));
      forall c | 0 <= c < |config| - 1
        ensures config[1..][c].0 != k
      {
        assert config[1..][c] == config[c + 1];
      }
      EachRowFrame(row', config[1..], requestParameters, k);
    }
  }

  /** The record's keys are its old ones and the configured ones. */
  lemma {:induction false} EachRowKeys(row: Record, config: seq<(string, EachValue)>, requestParameters: Option<Record>)
    ensures forall k :: k in EachRow(row, config, requestParameters).Keys() <==> k in row.Keys() || exists c :: 0 <= c < |config| && config[c].0 == k
    decreases |config|
  {
    if |config| > 0 {
      var row' := row.Set(config[0].0, EachResult(config[0].1, row, requestParameters));
      var rest := config[1..];
      EachRowKeys(row', rest, requestParameters);
      assert EachRow(row, config, requestParameters) == EachRow(row', rest, requestParameters);
      forall c | 1 <= c < |config|
        ensures config[c] == rest[c - 1]
      {
      }
      forall c | 0 <= c < |rest|
        ensures rest[c] == config[c + 1]
      {
      }
    }
  }

  /** Writing a configuration is writing its first c entries, then the rest. */
  lemma {:induction false} EachRowSplit(row: Record, config: seq<(string, EachValue)>, requestParameters: Option<Record>, c: nat)
    requires c <= |config|
    ensures EachRow(row, config, requestParameters) == EachRow(EachRow(row, config[..c], requestParameters), config[c..], requestParameters)
    decreases c
  {
    if c == 0 {
      assert config[..0] == [] && config[0..] == config;
    } else {
      var row' := row.Set(config[0].0, EachResult(config[0].1, row, requestParameters));
      EachRowPrefix(row, config, requestParameters, c);
      EachRowSplit(row', config[1..], requestParameters, c - 1);
      assert config[1..][c - 1..] == config[c..];
    }
  }

  /** Writing the first c entries is writing the first one, then the next c - 1. */
  lemma EachRowPrefix(row: Record, config: seq<(string, EachValue)>, requestParameters: Option<Record>, c: nat)
    requires 0 < c <= |config|
    ensures EachRow(row, config, requestParameters)
            == EachRow(row.Set(config[0].0, EachResult(config[0].1, row, requestParameters)), config[1..], requestParameters)
    ensures EachRow(row, config[..c], requestParameters)
            == EachRow(row.Set(config[0].0, EachResult(config[0].1, row, requestParameters)), config[1..][..c - 1], requestParameters)
  {
    var before := config[..c];
    assert before[0] == config[0] && before[1..] == config[1..][..c - 1];
  }

  /** The first entry, when its key does not recur, decides that key. */
  lemma EachRowFirstLast(row: Record, config: seq<(string, EachValue)>, requestParameters: Option<Record>)
    requires |config| > 0
    requires forall d :: 0 < d < |config| ==> config[d].0 != config[0].0
    ensures EachRow(row, config, requestParameters).Get(config[0].0) == Some(EachResult(config[0].1, row, requestParameters))
  {
    var row' := row.Set(config[0].0, EachResult(config[0].1, row, requestParameters));
    forall d | 0 <= d < |config| - 1
      ensures config[1..][d].0 != config[0].0
    {
      assert config[1..][d] == config[d + 1];
    }
    EachRowFrame(row', config[1..], requestParameters, config[0].0);
  }

  /** A key configured for the last time at entry c holds that entry's
      value, computed on the record as it stood just before the entry. */
  lemma EachRowLast(row: Record, config: seq<(string, EachValue)>, requestParameters: Option<Record>, c: nat)
    requires c < |config|
    requires forall d :: c < d < |config| ==> config[d].0 != config[c].0
    ensures EachRow(row, config, requestParameters).Get(config[c].0)
            == Some(EachResult(config[c].1, EachRow(row, config[..c], requestParameters), requestParameters))
  {
    EachRowSplit(row, config, requestParameters, c);
    var tail := config[c..];
    assert tail[0] == config[c];
    forall d | 0 < d < |tail|
      ensures tail[d].0 != tail[0].0
    {
      assert tail[d] == config[c + d];
    }
    EachRowFirstLast(EachRow(row, config[..c], requestParameters), tail, requestParameters);
  }

  /** `each`: the configured keys written into every record. */
  function Each(rows: seq<Record>, config: seq<(string, EachValue)>, requestParameters: Option<Record>): (r: seq<Record>)
    ensures |r| == |rows|
    ensures forall i :: 0 <= i < |rows| ==> r[i] == EachRow(rows[i], config, requestParameters)
    ensures forall i, k :: 0 <= i < |rows| && (forall c :: 0 <= c < |config| ==> config[c].0 != k) ==> r[i].Get(k) == rows[i].Get(k)
  {
    forall i | 0 <= i < |rows|
    {
      EachRowSpec(rows[i], config, requestParameters);
    }
    seq(|rows|, i requires 0 <= i < |rows| => EachRow(rows[i], config, requestParameters))
  }

  /** A key configured with a function for the last time holds the
      function's value for the record as it stood just before that entry:
      the original record with every earlier entry already written. */
  lemma EachRowComputed(row: Record, config: seq<(string, EachValue)>, requestParameters: Option<Record>, c: nat)
    requires c < |config| && config[c].1.Computed?
    requires forall d :: c < d < |config| ==> config[d].0 != config[c].0
    ensures EachRow(row, config, requestParameters).Get(config[c].0)
            == Some(config[c].1.derive(EachRow(row, config[..c], requestParameters), requestParameters))
  {
    EachRowLast(row, config, requestParameters, c);
  }
}

=== FILE: environment.dfy ===
/** What the scraper reads from the outside world: DOM nodes as jQuery sees
    them, and the library and platform functions it calls but does not
    define, gathered in one record so that every operation takes them as
    an explicit argument. */
module Environment {
  import opened Results
  import opened Values

  /** A DOM node as jQuery reads it: `.text()`, `.html()` and its attributes. */
  datatype Node = Node(text: string, html: string, attributes: map<string, string>)

  /** A regular expression object, by its source text and flags. */
  datatype RegExp = RegExp(source: string, flags: string)

  datatype Host = Host(
    // `$(selector)` on a document, `$(node).find(selector)` on a node: the matches in document order
    find: (Node, string) -> seq<Node>,
    // `re.exec(s)`: None for no match; otherwise the whole match followed by the
    // capture groups, a group that did not participate being None (undefined)
    exec: (RegExp, string) -> Option<seq<Option<string>>>,
    // whether `new RegExp(p)` accepts the pattern p rather than throwing a SyntaxError
    compiles: string -> bool,
    // `Number(s)`
    toNumber: string -> Number,
    // the time value of `new Date(s)`
    parseDate: string -> Number,
    // `String(n)` for a number and `String(d)` for a Date of time value d
    numberToString: Number -> string,
    dateToString: Number -> string,
    // `flatnest.nest`: dotted keys expanded into nested objects
    nest: Record -> Record)
}

=== FILE: permutations.dfy ===
/** `Scraper.permutations`: the cartesian product of n lists, in the order
    the scraper's recursive walk produces it. */
module Cartesian {
  import opened Seqs

  /** The number of combinations: the product of the list lengths. */
  function Count<T>(args: seq<seq<T>>): nat
    decreases |args|
  {
    if |args| == 0 then 1 else |args[0]| * Count(args[1..])
  }

  /** ds holds one digit per list, each below its list's length. */
  predicate Digits<T>(args: seq<seq<T>>, ds: seq<nat>) {
    |ds| == |args| && forall i :: 0 <= i < |ds| ==> ds[i] < |args[i]|
  }

  lemma DigitsTail<T>(args: seq<seq<T>>, ds: seq<nat>)
    requires |args| > 0 && Digits(args, ds)
    ensures Digits(args[1..], ds[1..])
  {
    forall i | 0 <= i < |ds[1..]|
      ensures ds[1..][i] < |args[1..][i]|
    {
      assert ds[1..][i] == ds[i + 1] && args[1..][i] == args[i + 1];
    }
  }

  lemma DigitsCons<T>(args: seq<seq<T>>, d: nat, ds: seq<nat>)
    requires |args| > 0 && d < |args[0]| && Digits(args[1..], ds)
    ensures Digits(args, [d] + ds) && ([d] + ds)[1..] == ds
  {
    var ds' := [d] + ds;
    forall i | 1 <= i < |ds'|
      ensures ds'[i] < |args[i]|
    {
      assert ds'[i] == ds[i - 1] && args[1..][i - 1] == args[i];
    }
  }

  /** The combination a digit vector selects: digit d at list i picks the
      element |args[i]| - 1 - d, counting from the end of the list. */
  function Choice<T>(args: seq<seq<T>>, ds: seq<nat>): (c: seq<T>)
    requires Digits(args, ds)
    ensures |c| == |args|
    decreases |args|
  {
    if |args| == 0 then []
    else
      DigitsTail(args, ds);
      [args[0][|args[0]| - 1 - ds[0]]] + Choice(args[1..], ds[1..])
  }

  /** The position of a digit vector read as a mixed-radix numeral whose most
      significant digit belongs to the first list. */
  function Rank<T>(args: seq<seq<T>>, ds: seq<nat>): (k: nat)
    requires Digits(args, ds)
    ensures k < Count(args)
    decreases |args|
  {
    if |args| == 0 then 0
    else
      var m := Count(args[1..]);
      DigitsTail(args, ds);
      var j := Rank(args[1..], ds[1..]);
      CellBound(ds[0], |args[0]|, m, j);
      Cell(ds[0], m, j)
  }

  /** The scraper's inner `recurse(array, argsIndex)`: its `while (--index > -1)`
      loop, entered with the elements below `index` of args[argsIndex] still
      to visit. Each visited element is appended to a copy of the prefix,
      which is either completed (at the last list) or extended by recursing
      into the next list. */
  function Walk<T>(args: seq<seq<T>>, argsIndex: nat, prefix: seq<T>, index: nat): seq<seq<T>>
    requires argsIndex < |args| && index <= |args[argsIndex]|
    decreases |args| - argsIndex, index
  {
    if index == 0 then []
    else
      var clone := prefix + [args[argsIndex][index - 1]];
      (if argsIndex < |args| - 1 then Walk(args, argsIndex + 1, clone, |args[argsIndex + 1]|) else [clone])
      + Walk(args, argsIndex, prefix, index - 1)
  }

  /** `Scraper.permutations(args)`. It reads `args[0].length` before anything
      else, so it needs at least one list. The combination a digit vector
      selects sits at that vector's rank: the first list varies slowest and
      every list is walked from its last element down to its first. */
  function Permutations<T>(args: seq<seq<T>>): (ps: seq<seq<T>>)
    requires |args| > 0
    ensures |ps| == Count(args)
    ensures forall ds :: Digits(args, ds) ==> Rank(args, ds) < |ps| && ps[Rank(args, ds)] == Choice(args, ds)
  {
    assert args[0..] == args;
    assert args[1..] == args[0 + 1..];
    WalkLength(args, 0, [], |args[0]|);
    forall ds | Digits(args, ds)
      ensures Rank(args, ds) < |Walk(args, 0, [], |args[0]|)|
      ensures Walk(args, 0, [], |args[0]|)[Rank(args, ds)] == Choice(args, ds)
    {
      DigitsTail(args, ds);
      WalkEnumerates(args, 0, [], |args[0]|, ds[0], ds[1..]);
    }
    Walk(args, 0, [], |args[0]|)
  }

  /** Every position below n * m is d * m + j for a digit d below n and a
      remainder j below m. */
  lemma {:induction false} Decompose(k: nat, n: nat, m: nat) returns (d: nat, j: nat)
    requires k < n * m
    ensures d < n && j < m && k == Cell(d, m, j)
    decreases n
  {
    assert n != 0;
    if k < m {
      d, j := 0, k;
    } else {
      LengthStep(n, m);
      var d', j' := Decompose(k - m, n - 1, m);
      d, j := d' + 1, j';
      RowStep(d, n, m, j);
    }
  }

  /** Walk visits `index` elements, each followed by all combinations of the
      lists after it. */
  lemma {:induction false} WalkLength<T>(args: seq<seq<T>>, argsIndex: nat, prefix: seq<T>, index: nat)
    requires argsIndex < |args| && index <= |args[argsIndex]|
    ensures |Walk(args, argsIndex, prefix, index)| == index * Count(args[argsIndex + 1..])
    decreases |args| - argsIndex, index
  {
    var m := Count(args[argsIndex + 1..]);
    if index > 0 {
      var clone := prefix + [args[argsIndex][index - 1]];
      var block := Block(args, argsIndex, clone);
      var rest := Walk(args, argsIndex, prefix, index - 1);
      assert Walk(args, argsIndex, prefix, index) == block + rest;
      WalkLength(args, argsIndex, prefix, index - 1);
      if argsIndex < |args| - 1 {
        WalkLength(args, argsIndex + 1, clone, |args[argsIndex + 1]|);
        assert args[argsIndex + 1..][0] == args[argsIndex + 1];
        assert args[argsIndex + 1..][1..] == args[argsIndex + 2..];
      } else {
        assert args[argsIndex + 1..] == [];
      }
      assert |block| == m && |rest| == (index - 1) * m;
      LengthStep(index, m);
    }
  }

  /** What one visited element contributes: the completed copy at the last
      list, otherwise the walk over the next list behind it. */
  function Block<T>(args: seq<seq<T>>, argsIndex: nat, clone: seq<T>): seq<seq<T>>
    requires argsIndex < |args|
  {
    if argsIndex < |args| - 1 then Walk(args, argsIndex + 1, clone, |args[argsIndex + 1]|) else [clone]
  }

  /** The block of a visited element holds, at the rank of a digit vector
      over the lists after it, that element's copy extended by their choice. */
  lemma {:induction false} BlockEnumerates<T>(args: seq<seq<T>>, argsIndex: nat, clone: seq<T>, ds: seq<nat>)
    requires argsIndex < |args| && Digits(args[argsIndex + 1..], ds)
    ensures Rank(args[argsIndex + 1..], ds) < |Block(args, argsIndex, clone)|
    ensures Block(args, argsIndex, clone)[Rank(args[argsIndex + 1..], ds)] == clone + Choice(args[argsIndex + 1..], ds)
    decreases |args| - argsIndex, 0
  {
    var rest := args[argsIndex + 1..];
    if argsIndex < |args| - 1 {
      assert rest[0] == args[argsIndex + 1] && rest[1..] == args[argsIndex + 2..];
      DigitsTail(rest, ds);
      WalkEnumerates(args, argsIndex + 1, clone, |rest[0]|, ds[0], ds[1..]);
      assert Rank(rest, ds) == Cell(ds[0], Count(rest[1..]), Rank(rest[1..], ds[1..]));
      assert Choice(rest, ds) == [rest[0][|rest[0]| - 1 - ds[0]]] + Choice(rest[1..], ds[1..]);
    } else {
      assert rest == [] && ds == [];
    }
  }

  lemma BlockLength<T>(args: seq<seq<T>>, argsIndex: nat, clone: seq<T>)
    requires argsIndex < |args|
    ensures |Block(args, argsIndex, clone)| == Count(args[argsIndex + 1..])
  {
    if argsIndex < |args| - 1 {
      WalkLength(args, argsIndex + 1, clone, |args[argsIndex + 1]|);
      assert args[argsIndex + 1..][0] == args[argsIndex + 1];
      assert args[argsIndex + 1..][1..] == args[argsIndex + 2..];
    } else {
      assert args[argsIndex + 1..] == [];
    }
  }

  /** Walk, entered with `index` elements of args[argsIndex] left, holds in
      row d, column Rank(rest, ds) of rows of width m the prefix, then element index - 1 - d
      of args[argsIndex], then the choice ds from the remaining lists, where
      m is the number of their combinations. */
  lemma {:induction false} WalkEnumerates<T>(args: seq<seq<T>>, argsIndex: nat, prefix: seq<T>, index: nat, d: nat, ds: seq<nat>)
    requires argsIndex < |args| && index <= |args[argsIndex]|
    requires d < index && Digits(args[argsIndex + 1..], ds)
    ensures Cell(d, Count(args[argsIndex + 1..]), Rank(args[argsIndex + 1..], ds)) < |Walk(args, argsIndex, prefix, index)|
    ensures Walk(args, argsIndex, prefix, index)[Cell(d, Count(args[argsIndex + 1..]), Rank(args[argsIndex + 1..], ds))]
            == prefix + [args[argsIndex][index - 1 - d]] + Choice(args[argsIndex + 1..], ds)
    decreases |args| - argsIndex, index
  {
    var m := Count(args[argsIndex + 1..]);
    var j := Rank(args[argsIndex + 1..], ds);
    var clone := prefix + [args[argsIndex][index - 1]];
    var head := Block(args, argsIndex, clone);
    var tail := Walk(args, argsIndex, prefix, index - 1);
    assert Walk(args, argsIndex, prefix, index) == head + tail;
    BlockLength(args, argsIndex, clone);
    WalkLength(args, argsIndex, prefix, index - 1);
    if d == 0 {
      BlockEnumerates(args, argsIndex, clone, ds);
      assert Cell(0, m, j) == j;
      assert (head + tail)[j] == head[j];
    } else {
      WalkEnumerates(args, argsIndex, prefix, index - 1, d - 1, ds);
      RowStep(d, index, m, j);
      assert (head + tail)[Cell(d, m, j)] == tail[Cell(d - 1, m, j)];
    }
  }

  /** Every position of the enumeration is the rank of some digit vector. */
  lemma {:induction false} RankOnto<T>(args: seq<seq<T>>, k: nat)
    requires k < Count(args)
    ensures exists ds :: Digits(args, ds) && Rank(args, ds) == k
    decreases |args|
  {
    if |args| == 0 {
      assert Digits(args, []) && Rank(args, []) == k;
    } else {
      var m := Count(args[1..]);
      var d, j := Decompose(k, |args[0]|, m);
      RankOnto(args[1..], j);
      var ds' :| Digits(args[1..], ds') && Rank(args[1..], ds') == j;
      DigitsCons(args, d, ds');
      assert Rank(args, [d] + ds') == k;
    }
  }

  /** The choice of a digit vector picks an element of the i-th list at position i. */
  lemma {:induction false} ChoicePicks<T>(args: seq<seq<T>>, ds: seq<nat>)
    requires Digits(args, ds)
    ensures forall i :: 0 <= i < |args| ==> Choice(args, ds)[i] in args[i]
    decreases |args|
  {
    if |args| > 0 {
      DigitsTail(args, ds);
      ChoicePicks(args[1..], ds[1..]);
      var c := Choice(args, ds);
      forall i | 1 <= i < |args|
        ensures c[i] in args[i]
      {
        assert c[i] == Choice(args[1..], ds[1..])[i - 1];
        assert args[1..][i - 1] == args[i];
      }
    }
  }

  /** Every choice of one element per list is the choice of some digit vector. */
  lemma {:induction false} ChoiceComplete<T>(args: seq<seq<T>>, c: seq<T>)
    requires |c| == |args|
    requires forall i :: 0 <= i < |args| ==> c[i] in args[i]
    ensures exists ds :: Digits(args, ds) && Choice(args, ds) == c
    decreases |args|
  {
    if |args| == 0 {
      assert Digits(args, []) && Choice(args, []) == c;
    } else {
      forall i | 0 <= i < |args[1..]|
        ensures c[1..][i] in args[1..][i]
      {
        assert c[1..][i] == c[i + 1] && args[1..][i] == args[i + 1];
      }
      ChoiceComplete(args[1..], c[1..]);
      var ds' :| Digits(args[1..], ds') && Choice(args[1..], ds') == c[1..];
      var x :| 0 <= x < |args[0]| && args[0][x] == c[0];
      var d := |args[0]| - 1 - x;
      var ds := [d] + ds';
      DigitsCons(args, d, ds');
      assert ds[0] == d;
      assert Choice(args, ds) == [args[0][x]] + Choice(args[1..], ds');
      assert [c[0]] + c[1..] == c;
    }
  }

  /** The permutations are exactly the choices of one element per list. */
  lemma PermutationsExactlyChoices<T>(args: seq<seq<T>>, c: seq<T>)
    requires |args| > 0
    ensures c in Permutations(args) <==> |c| == |args| && forall i :: 0 <= i < |args| ==> c[i] in args[i]
  {
    var ps := Permutations(args);
    if c in ps {
      var k :| 0 <= k < |ps| && ps[k] == c;
      RankOnto(args, k);
      var ds :| Digits(args, ds) && Rank(args, ds) == k;
      ChoicePicks(args, ds);
    }
    if |c| == |args| && forall i :: 0 <= i < |args| ==> c[i] in args[i] {
      ChoiceComplete(args, c);
      var ds :| Digits(args, ds) && Choice(args, ds) == c;
      assert ps[Rank(args, ds)] == c;
    }
  }

  /** A list with no elements leaves nothing to combine. */
  lemma {:induction false} EmptyListNoCombination<T>(args: seq<seq<T>>, i: nat)
    requires i < |args| && |args[i]| == 0
    ensures Count(args) == 0
    decreases |args|
  {
    if i > 0 {
      assert args[1..][i - 1] == args[i];
      EmptyListNoCombination(args[1..], i - 1);
    }
  }

  /** `[[1, 2], [3]]` gives `[[2, 3], [1, 3]]`: descending within each list. */
  lemma PermutationsExample()
    ensures Permutations<int>([[1, 2], [3]]) == [[2, 3], [1, 3]]
  {
    var args: seq<seq<int>> := [[1, 2], [3]];
    assert [] + [args[0][1]] == [2] && [] + [args[0][0]] == [1];
    assert [2] + [args[1][0]] == [2, 3] && [1] + [args[1][0]] == [1, 3];
    assert Walk(args, 1, [2], 1) == [[2, 3]];
    assert Walk(args, 1, [1], 1) == [[1, 3]];
    assert Walk(args, 0, [], 1) == [[1, 3]];
    assert Walk(args, 0, [], 2) == [[2, 3], [1, 3]];
  }
}

=== FILE: pipeline.dfy ===
/** What happens to one matched DOM node: its text, markup or an attribute
    is extracted, control characters and surrounding white space are
    removed, then a filter and a format are applied, in that order. */
module Pipeline {
  import opened Results
  import opened Seqs
  import opened Values
  import opened Environment
  import opened JsStrings

  /** An element's `filter` option. */
  datatype Filter =
    | NoFilter                              // absent
    | FilterFn(apply: string -> Value)      // a function of the string
    | FilterRegExp(re: RegExp)              // a RegExp object
    | FilterPattern(pattern: string)        // a string, compiled with `new RegExp`

  /** An element's `format` option. */
  datatype Format =
    | NoFormat                              // absent
    | FormatFn(apply: string -> Value)      // a function of the string
    | FormatName(name: string)              // "number", "date" or any other name

  /** One entry of a collection's `elements`: the selector, which part of
      the node to read (text when absent), and the filter and format. */
  datatype ElementSpec = ElementSpec(query: string, attr: Option<string>, filter: Filter, format: Format)

  /** The part of a node an element reads. An absent or empty attribute name
      reads the text; "html" the markup; any other name that attribute, which
      may be missing (undefined). */
  function Extract(node: Node, attr: Option<string>): (r: Option<string>)
    ensures (attr.None? || attr.value == "" || attr.value == "text") ==> r == Some(node.text)
    ensures attr == Some("html") ==> r == Some(node.html)
    ensures attr.Some? && attr.value !in {"", "text", "html"} ==>
              (r.Some? <==> attr.value in node.attributes) && (r.Some? ==> r.value == node.attributes[attr.value])
  {
    var name := if attr.None? || attr.value == "" then "text" else attr.value;
    if name == "html" then Some(node.html)
    else if name == "text" then Some(node.text)
    else if name in node.attributes then Some(node.attributes[name])
    else None
  }

  /** Leaving the attribute out, giving it empty, and asking for "text" all
      read the same part of the node. */
  lemma ExtractDefaultsToText(node: Node)
    ensures Extract(node, None) == Extract(node, Some("")) == Extract(node, Some("text")) == Some(node.text)
  {
  }

  predicate IsControl(c: char) {
    c == '\r' || c == '\n' || c == '\t'
  }

  predicate NotControl(c: char) {
    !IsControl(c)
  }

  /** Carriage returns, line feeds and tabs removed anywhere, then the
      remaining white space trimmed from both ends. */
  function ScraperTrim(s: string): (r: string)
    ensures forall i :: 0 <= i < |r| ==> !IsControl(r[i])
    ensures r == [] || (!IsWhiteSpace(r[0]) && !IsWhiteSpace(r[|r| - 1]))
    ensures |r| <= |s|
    ensures var kept := Retain(s, NotControl); var a := Leading(kept, IsWhiteSpace);
              a + |r| <= |kept| && r == kept[a..a + |r|]
              && (forall i :: 0 <= i < a ==> IsWhiteSpace(kept[i]))
              && (forall i :: a + |r| <= i < |kept| ==> IsWhiteSpace(kept[i]))
  {
    var kept := Retain(s, NotControl);
    var r := Trim(kept, IsWhiteSpace);
    forall i | 0 <= i < |r|
      ensures !IsControl(r[i])
    {
      assert r[i] == kept[Leading(kept, IsWhiteSpace) + i];
    }
    r
  }

  /** Trimming a trimmed string changes nothing. */
  lemma ScraperTrimIdempotent(s: string)
    ensures ScraperTrim(ScraperTrim(s)) == ScraperTrim(s)
  {
    var r := ScraperTrim(s);
    RetainAll(r, NotControl);
    TrimTrimmed(r, IsWhiteSpace);
  }

  /** A string with nothing to remove passes unchanged. */
  lemma ScraperTrimClean(s: string)
    requires forall i :: 0 <= i < |s| ==> !IsControl(s[i])
    requires s == [] || (!IsWhiteSpace(s[0]) && !IsWhiteSpace(s[|s| - 1]))
    ensures ScraperTrim(s) == s
  {
    RetainAll(s, NotControl);
    TrimTrimmed(s, IsWhiteSpace);
  }

  /** Removing control characters keeps everything else in order, so a tab
      inside a word joins its two halves. */
  lemma ScraperTrimJoins(a: string, b: string)
    requires forall i :: 0 <= i < |a| ==> !IsControl(a[i])
    requires forall i :: 0 <= i < |b| ==> !IsControl(b[i])
    requires |a| > 0 && |b| > 0 && !IsWhiteSpace(a[0]) && !IsWhiteSpace(b[|b| - 1])
    ensures ScraperTrim(a + "\t" + b) == a + b
  {
    var t := "\t";
    RetainAll(a, NotControl);
    RetainAll(b, NotControl);
    RetainNone(t, NotControl);
    RetainAppend(a, t, NotControl);
    assert Retain(a + t, NotControl) == a;
    RetainAppend(a + t, b, NotControl);
    assert (a + b)[0] == a[0] && (a + b)[|a + b| - 1] == b[|b| - 1];
    TrimTrimmed(a + b, IsWhiteSpace);
  }

  /** Whether a filter option counts as given (`!!filter`): an empty pattern
      string is falsy. */
  predicate FilterGiven(f: Filter) {
    match f
    case NoFilter => false
    case FilterPattern(p) => p != ""
    case _ => true
  }

  /** The value a regular expression match yields: the first capture group
      if there is one, else the whole match; no match gives null, and a
      group that did not participate gives undefined. */
  function MatchValue(m: Option<seq<Option<string>>>): (r: Value)
    ensures m.None? ==> r == Null
    ensures m.Some? && |m.value| == 0 ==> r == Null
    ensures m.Some? && |m.value| >= 1 ==>
              var g := if |m.value| == 1 then m.value[0] else m.value[1];
              r == (if g.Some? then Str(g.value) else Undefined)
  {
    match m
    case None => Null
    case Some(ms) =>
      if |ms| == 0 then Null
      else
        var g := if |ms| == 1 then ms[0] else ms[1];
        if g.Some? then Str(g.value) else Undefined
  }

  /** Whether applying the filter throws: only compiling a pattern string
      can, and only once the data has passed the guard. */
  predicate FilterThrows(env: Host, data: Value, f: Filter) {
    Truthy(data) && data.Str? && f.FilterPattern? && f.pattern != "" && !env.compiles(f.pattern)
  }

  /** Applies an element's filter. Falsy data, a filter not given and data
      other than a string pass through unchanged; a pattern string that is
      not a regular expression is a SyntaxError. */
  function ApplyFilter(env: Host, data: Value, f: Filter): (r: Result<Value>)
    ensures r.Err? <==> FilterThrows(env, data, f)
    ensures r.Err? ==> r.error == SyntaxError(f.pattern)
    ensures !Truthy(data) || !FilterGiven(f) || !data.Str? ==> r == Ok(data)
    ensures Truthy(data) && data.Str? && f.FilterFn? ==> r == Ok(f.apply(data.s))
    ensures Truthy(data) && data.Str? && f.FilterRegExp? ==> r == Ok(MatchValue(env.exec(f.re, data.s)))
    ensures Truthy(data) && data.Str? && FilterGiven(f) && f.FilterPattern? && env.compiles(f.pattern) ==>
              r == Ok(MatchValue(env.exec(RegExp(f.pattern, ""), data.s)))
  {
    if !Truthy(data) || !FilterGiven(f) || !data.Str? then Ok(data)
    else
      match f
      case FilterFn(apply) => Ok(apply(data.s))
      case FilterRegExp(re) => Ok(MatchValue(env.exec(re, data.s)))
      case FilterPattern(p) =>
        if env.compiles(p) then Ok(MatchValue(env.exec(RegExp(p, ""), data.s))) else Err(SyntaxError(p))
  }

  /** A pattern string that compiles filters exactly as the RegExp object
      with that source and no flags. */
  lemma PatternIsRegExp(env: Host, data: Value, p: string)
    requires p != "" && env.compiles(p)
    ensures ApplyFilter(env, data, FilterPattern(p)) == ApplyFilter(env, data, FilterRegExp(RegExp(p, "")))
  {
  }

  /** Whether a format option counts as given: an empty name is falsy. */
  predicate FormatGiven(f: Format) {
    match f
    case NoFormat => false
    case FormatName(n) => n != ""
    case _ => true
  }

  predicate IsNumberChar(c: char) {
    ('0' <= c <= '9') || c == '.'
  }

  /** The characters "number" formatting keeps: digits and dots. */
  function NumberText(s: string): (r: string)
    ensures forall i :: 0 <= i < |r| ==> IsNumberChar(r[i])
    ensures forall c :: c in r <==> c in s && IsNumberChar(c)
  {
    RetainMembers(s, IsNumberChar);
    Retain(s, IsNumberChar)
  }

  /** NumberText works character by character: it distributes over
      concatenation and keeps one character exactly when it is a digit or a
      dot, so the kept characters stay in their order. */
  lemma NumberTextHomomorphism(a: string, b: string, c: char)
    ensures NumberText(a + b) == NumberText(a) + NumberText(b)
    ensures NumberText([c]) == if IsNumberChar(c) then [c] else []
  {
    RetainAppend(a, b, IsNumberChar);
    assert [c][1..] == [];
  }

  /** Applies an element's format. Falsy data, a format not given and data
      other than a string pass through unchanged; so does a name other than
      "number" and "date". */
  function ApplyFormat(env: Host, data: Value, f: Format): (r: Value)
    ensures !Truthy(data) || !FormatGiven(f) || !data.Str? ==> r == data
    ensures Truthy(data) && data.Str? && f.FormatFn? ==> r == f.apply(data.s)
    ensures Truthy(data) && data.Str? && f == FormatName("number") ==> r == Num(env.toNumber(NumberText(data.s)))
    ensures Truthy(data) && data.Str? && f == FormatName("date") ==> r == DateObj(env.parseDate(data.s))
    ensures f.FormatName? && f.name !in {"number", "date"} ==> r == data
  {
    if !Truthy(data) || !FormatGiven(f) || !data.Str? then data
    else
      match f
      case FormatFn(apply) => apply(data.s)
      case FormatName(name) =>
        if name == "number" then Num(env.toNumber(NumberText(data.s)))
        else if name == "date" then DateObj(env.parseDate(data.s))
        else data
  }

  /** Whether the pipeline throws on a node: the attribute it reads is
      missing, or its filter is a pattern that does not compile. */
  predicate NodeFails(env: Host, node: Node, spec: ElementSpec) {
    Extract(node, spec.attr).None?
    || FilterThrows(env, Str(ScraperTrim(Extract(node, spec.attr).value)), spec.filter)
  }

  /** A named format yields a number or a date, never a string, so
      formatting again changes nothing. */
  lemma FormatIdempotent(env: Host, data: Value, name: string)
    requires name == "number" || name == "date"
    ensures ApplyFormat(env, ApplyFormat(env, data, FormatName(name)), FormatName(name))
            == ApplyFormat(env, data, FormatName(name))
  {
  }

  /** The value one matched node contributes: extract, trim, filter, format.
      A missing attribute reaches the trim as undefined, whose `replace`
      cannot be called: a TypeError. */
  function ElementValue(env: Host, node: Node, spec: ElementSpec): (r: Result<Value>)
    ensures r.Err? <==> NodeFails(env, node, spec)
    ensures r.Err? && Extract(node, spec.attr).None? ==> r.error.TypeError?
    ensures r.Err? && Extract(node, spec.attr).Some? ==> r.error == SyntaxError(spec.filter.pattern)
    ensures r.Ok? ==>
              var filtered := ApplyFilter(env, Str(ScraperTrim(Extract(node, spec.attr).value)), spec.filter);
              filtered.Ok? && r.value == ApplyFormat(env, filtered.value, spec.format)
  {
    match Extract(node, spec.attr)
    case None => Err(TypeError("Cannot read properties of undefined (reading 'replace')"))
    case Some(raw) =>
      var filtered :- ApplyFilter(env, Str(ScraperTrim(raw)), spec.filter);
      Ok(ApplyFormat(env, filtered, spec.format))
  }

  /** Without a filter or format an element yields its trimmed text, and only
      an empty text yields the empty string. */
  lemma PlainElement(env: Host, node: Node, query: string)
    ensures ElementValue(env, node, ElementSpec(query, None, NoFilter, NoFormat)) == Ok(Str(ScraperTrim(node.text)))
  {
  }

  /** An element whose text trims to nothing keeps the empty string whatever
      its filter and format: both pass falsy data through. */
  lemma EmptyTextPassesThrough(env: Host, node: Node, spec: ElementSpec)
    requires Extract(node, spec.attr).Some? && ScraperTrim(Extract(node, spec.attr).value) == ""
    ensures ElementValue(env, node, spec) == Ok(Str(""))
  {
  }

  /** "number" formatting keeps only digits and dots: a price with a
      currency sign, a thousands separator and a unit is read as 1234.56. */
  lemma NumberFormatExample(env: Host)
    ensures ApplyFormat(env, Str("$1,234.56 USD"), FormatName("number")) == Num(env.toNumber("1234.56"))
  {
    NumberTextExample();
    NumberFormatOf(env, "$1,234.56 USD", "number");
  }

  /** The "number" format of any non-empty string. The example passes its
      literals through parameters so that the solver does not unfold them. */
  lemma NumberFormatOf(env: Host, s: string, name: string)
    requires s != [] && name == "number"
    ensures ApplyFormat(env, Str(s), FormatName(name)) == Num(env.toNumber(NumberText(s)))
  {
  }

  /** The characters "number" keeps of the example string. */
  lemma NumberTextExample()
    ensures NumberText("$1,234.56 USD") == "1234.56"
  {
    var front, back := "$1,", "234.56 USD";
    KeptFront("$", "1", ",");
    KeptBack("234.56", " USD");
    RetainAppend(front, back, IsNumberChar);
    Joined(front, back, "1", "234.56");
  }

  /** The helpers below take the example's pieces as parameters bound by
      their requires, which keeps the literal proofs small. */
  lemma Joined(front: string, back: string, a: string, b: string)
    requires front == "$1," && back == "234.56 USD" && a == "1" && b == "234.56"
    ensures front + back == "$1,234.56 USD" && a + b == "1234.56"
  {
  }

  lemma KeptFront(p1: string, p2: string, p3: string)
    requires p1 == "$" && p2 == "1" && p3 == ","
    ensures p1 + p2 + p3 == "$1,"
    ensures Retain(p1 + p2 + p3, IsNumberChar) == p2
  {
    RetainAppend(p1 + p2, p3, IsNumberChar);
    RetainNone(p3, IsNumberChar);
    RetainAppend(p1, p2, IsNumberChar);
    RetainNone(p1, IsNumberChar);
    RetainAll(p2, IsNumberChar);
  }

  lemma KeptBack(p4: string, p5: string)
    requires p4 == "234.56" && p5 == " USD"
    ensures p4 + p5 == "234.56 USD"
    ensures Retain(p4 + p5, IsNumberChar) == p4
  {
    RetainAppend(p4, p5, IsNumberChar);
    RetainNone(p5, IsNumberChar);
    RetainAll(p4, IsNumberChar);
  }
}

=== FILE: results.dfy ===
/** Outcomes of the scraper's operations: an optional value, and either a
    value or the exception the JavaScript code would throw. */
module Results {

  datatype Option<+T> = None | Some(value: T)

  /** The exceptions the modelled code raises. */
  datatype Error =
    | TypeError(reason: string)    // a property read on undefined or null, or a call of a non-function
    | IllegalFormat(key: string)   // unequal result counts in an ungrouped collection
    | SyntaxError(pattern: string) // `new RegExp(pattern)` on a pattern that is not a regular expression

  datatype Result<+T> = Ok(value: T) | Err(error: Error) {

    predicate IsFailure() {
      Err?
    }

    function PropagateFailure<U>(): Result<U>
      requires Err?
    {
      Err(error)
    }

    function Extract(): T
      requires Ok?
    {
      value
    }
  }

  const IllegalFormatPrefix: string :=
    "Illegal format. Each entry in a collection must yield exactly the same number of results. Error encountered on key: "

  /** The message of the thrown `Error`; an illegal format names its key last. */
  function Message(e: Error): string
  {
    match e
    case TypeError(reason) => reason
    case IllegalFormat(key) => IllegalFormatPrefix + key
    case SyntaxError(pattern) => "Invalid regular expression: /" + pattern + "/"
  }

  /** The offending key can be read back from an illegal-format message. */
  lemma MessageNamesKey(key: string)
    ensures Message(IllegalFormat(key))[|IllegalFormatPrefix|..] == key
  {
  }
}

=== FILE: scraper.dfy ===
/** How a collection is scraped from a page: every element of the
    collection is looked up in every group node, the pipeline values of its
    matches are gathered into the group's record, and the records become
    the collection stored under its name. */
module Scraper {
  import opened Results
  import opened Seqs
  import opened Values
  import opened Environment
  import opened Pipeline
  import opened Collection

  /** One entry of the configuration's `collections`. */
  datatype CollectionSpec = CollectionSpec(
    name: string,
    group: Option<string>,                       // the group selector, if any
    elements: seq<(string, ElementSpec)>,        // the `elements` object, in property order
    each: Option<seq<(string, EachValue)>>)      // the `each` object, if any

  /** A collection is grouped when its group selector is given and not empty. */
  predicate Grouped(spec: CollectionSpec) {
    spec.group.Some? && spec.group.value != ""
  }

  /** Appending a value to a field in multiple mode: a missing or falsy
      value is first replaced by an empty array, an array is extended, and
      any other value has no `push` to call. */
  function Push(gd: Record, key: string, data: Value): (r: Result<Record>)
    ensures r.Ok? <==> gd.Get(key).None? || !Truthy(gd.Get(key).value) || gd.Get(key).value.Arr?
    ensures r.Ok? ==> forall k :: k != key ==> r.value.Get(k) == gd.Get(k)
    ensures r.Ok? ==> r.value.Get(key) == Some(Arr(
              (if gd.Get(key).Some? && gd.Get(key).value.Arr? then gd.Get(key).value.items else []) + [data]))
  {
    match gd.Get(key)
    case Some(Arr(items)) => Ok(gd.Set(key, Arr(items + [data])))
    case Some(v) =>
      if Truthy(v) then Err(TypeError("groupData[key].push is not a function"))
      else
        assert [] + [data] == [data];
        Ok(gd.Set(key, Arr([data])))
    case None =>
      assert [] + [data] == [data];
      Ok(gd.Set(key, Arr([data])))
  }

  /** What one match contributes to the group's record: nothing for
      undefined, an array entry when the element matched several nodes,
      otherwise the value itself. */
  function Store(gd: Record, key: string, data: Value, multiple: bool): (r: Result<Record>)
    ensures data == Undefined ==> r == Ok(gd)
    ensures r.Err? <==> data != Undefined && multiple && gd.Get(key).Some? && Truthy(gd.Get(key).value) && !gd.Get(key).value.Arr?
    ensures r.Ok? ==> forall k :: k != key ==> r.value.Get(k) == gd.Get(k)
    ensures data != Undefined && !multiple ==> r.Ok? && r.value.Get(key) == Some(data)
  {
    if data == Undefined then Ok(gd)
    else if multiple then Push(gd, key, data)
    else Ok(gd.Set(key, data))
  }

  /** The matches of one element, in document order, each run through the
      pipeline `run` and stored under the element's key. */
  function ParseField(run: Node -> Result<Value>, nodes: seq<Node>, key: string, multiple: bool, gd: Record): Result<Record>
    decreases |nodes|
  {
    if |nodes| == 0 then Ok(gd)
    else
      var data :- run(nodes[0]);
      var gd' :- Store(gd, key, data, multiple);
      ParseField(run, nodes[1..], key, multiple, gd')
  }

  /** The pipeline of one element: extract, trim, filter, format. */
  function Pipe(env: Host, spec: ElementSpec): Node -> Result<Value> {
    n => ElementValue(env, n, spec)
  }

  /** parseElement: the element's query evaluated in the group node; the
      field counts as multiple when it matched more than one node. */
  function ParseElement(env: Host, scope: Node, key: string, spec: ElementSpec, gd: Record): Result<Record> {
    var nodes := env.find(scope, spec.query);
    ParseField(Pipe(env, spec), nodes, key, |nodes| > 1, gd)
  }

  /** The reference for a field: the pipeline values of the matches that
      are not undefined, in match order; the first failing match is the
      error. */
  function Defined(run: Node -> Result<Value>, nodes: seq<Node>): (r: Result<seq<Value>>)
    ensures r.Ok? ==> |r.value| <= |nodes| && Undefined !in r.value
    decreases |nodes|
  {
    if |nodes| == 0 then Ok([])
    else
      var v :- run(nodes[0]);
      var vs :- Defined(run, nodes[1..]);
      Ok((if v == Undefined then [] else [v]) + vs)
  }

  /** The reference fails exactly when the pipeline fails on some match. */
  lemma {:induction false} DefinedFails(run: Node -> Result<Value>, nodes: seq<Node>)
    ensures Defined(run, nodes).Err? <==> exists i :: 0 <= i < |nodes| && run(nodes[i]).Err?
    decreases |nodes|
  {
    if |nodes| > 0 {
      DefinedFails(run, nodes[1..]);
      if run(nodes[0]).Ok? {
        forall i | 1 <= i < |nodes|
          ensures nodes[1..][i - 1] == nodes[i]
        {
        }
        forall i | 0 <= i < |nodes| - 1
          ensures nodes[i + 1] == nodes[1..][i]
        {
        }
      }
    }
  }

  /** The items a field already holds in multiple mode. */
  function Prior(gd: Record, key: string): seq<Value> {
    if gd.Get(key).Some? && gd.Get(key).value.Arr? then gd.Get(key).value.items else []
  }

  /** The field's value once the defined values vs are appended to it. */
  function Appended(gd: Record, key: string, vs: seq<Value>): Option<Value> {
    if |vs| == 0 then gd.Get(key) else Some(Arr(Prior(gd, key) + vs))
  }

  /** In multiple mode a field whose value is missing or an array is
      stored into without error exactly when every match's pipeline
      succeeds. */
  lemma {:induction false} ParseFieldMultipleOk(run: Node -> Result<Value>, nodes: seq<Node>, key: string, gd: Record)
    requires gd.Get(key).None? || gd.Get(key).value.Arr?
    ensures ParseField(run, nodes, key, true, gd).Ok? <==> Defined(run, nodes).Ok?
    decreases |nodes|
  {
    if |nodes| > 0 && run(nodes[0]).Ok? {
      var st := Store(gd, key, run(nodes[0]).value, true);
      ParseFieldMultipleOk(run, nodes[1..], key, st.value);
    }
  }

  /** Pushing a defined value onto a missing or array field appends it. */
  lemma PushStep(gd: Record, key: string, v: Value)
    requires gd.Get(key).None? || gd.Get(key).value.Arr?
    ensures Store(gd, key, v, true).Ok?
    ensures v == Undefined ==> Store(gd, key, v, true).value == gd
    ensures v != Undefined ==> Store(gd, key, v, true).value.Get(key) == Some(Arr(Prior(gd, key) + [v]))
  {
  }

  /** In multiple mode such a field ends up holding its old items followed
      by the defined values, or untouched when there are none. */
  lemma {:induction false} ParseFieldMultiple(run: Node -> Result<Value>, nodes: seq<Node>, key: string, gd: Record)
    requires gd.Get(key).None? || gd.Get(key).value.Arr?
    requires ParseField(run, nodes, key, true, gd).Ok?
    ensures Defined(run, nodes).Ok?
    ensures ParseField(run, nodes, key, true, gd).value.Get(key) == Appended(gd, key, Defined(run, nodes).value)
    decreases |nodes|
  {
    ParseFieldMultipleOk(run, nodes, key, gd);
    if |nodes| > 0 {
      var v := run(nodes[0]).value;
      PushStep(gd, key, v);
      var gd' := Store(gd, key, v, true).value;
      assert ParseField(run, nodes, key, true, gd) == ParseField(run, nodes[1..], key, true, gd');
      ParseFieldMultiple(run, nodes[1..], key, gd');
      var d := Defined(run, nodes[1..]).value;
      assert Defined(run, nodes).value == (if v == Undefined then [] else [v]) + d;
      AppendedStep(gd, gd', key, v, d);
    }
  }

  /** Appending the rest after one stored value is appending both. */
  lemma AppendedStep(gd: Record, gd': Record, key: string, v: Value, d: seq<Value>)
    requires v == Undefined ==> gd' == gd
    requires v != Undefined ==> gd'.Get(key) == Some(Arr(Prior(gd, key) + [v]))
    ensures Appended(gd', key, d) == Appended(gd, key, (if v == Undefined then [] else [v]) + d)
  {
    if v == Undefined {
      assert [] + d == d;
    } else {
      var all := Prior(gd, key) + [v];
      assert Prior(gd', key) == all;
      if |d| == 0 {
        assert [v] + d == [v];
      } else {
        assert all + d == Prior(gd, key) + ([v] + d);
      }
    }
  }

  /** In single mode the last defined value wins, and a field without one
      is untouched; other keys never change. */
  lemma {:induction false} ParseFieldSingle(run: Node -> Result<Value>, nodes: seq<Node>, key: string, gd: Record)
    ensures ParseField(run, nodes, key, false, gd).Ok? <==> Defined(run, nodes).Ok?
    ensures ParseField(run, nodes, key, false, gd).Ok? ==>
              var r := ParseField(run, nodes, key, false, gd).value;
              var vs := Defined(run, nodes).value;
              (forall k :: k != key ==> r.Get(k) == gd.Get(k))
              && r.Get(key) == if |vs| == 0 then gd.Get(key) else Some(vs[|vs| - 1])
    decreases |nodes|
  {
    if |nodes| > 0 && run(nodes[0]).Ok? {
      var gd' := Store(gd, key, run(nodes[0]).value, false).value;
      ParseFieldSingle(run, nodes[1..], key, gd');
    }
  }

  /** The element pipeline fails on a node exactly when the attribute it
      reads is missing there or its filter pattern does not compile. */
  lemma PipeFails(env: Host, spec: ElementSpec, nodes: seq<Node>)
    ensures (exists i :: 0 <= i < |nodes| && Pipe(env, spec)(nodes[i]).Err?)
            <==> exists i :: 0 <= i < |nodes| && NodeFails(env, nodes[i], spec)
  {
    forall i | 0 <= i < |nodes|
      ensures Pipe(env, spec)(nodes[i]).Err? <==> NodeFails(env, nodes[i], spec)
    {
    }
  }

  /** What an element leaves in a group record that does not yet hold its
      key: nothing without matches or defined values, the value itself for a
      single match, and the array of defined values, at most one per match,
      for several; a missing attribute or a filter pattern that does not
      compile in any match is an error. */
  lemma FieldAccumulation(env: Host, scope: Node, key: string, spec: ElementSpec, gd: Record)
    requires gd.Get(key).None?
    ensures var nodes := env.find(scope, spec.query);
            ParseElement(env, scope, key, spec, gd).Err? <==> exists i :: 0 <= i < |nodes| && NodeFails(env, nodes[i], spec)
    ensures var nodes := env.find(scope, spec.query);
            ParseElement(env, scope, key, spec, gd).Ok? ==>
              Defined(Pipe(env, spec), nodes).Ok? &&
              var r := ParseElement(env, scope, key, spec, gd).value;
              var vs := Defined(Pipe(env, spec), nodes).value;
              (forall k :: k != key ==> r.Get(k) == gd.Get(k))
              && (|nodes| == 0 ==> r == gd)
              && (|vs| == 0 ==> r.Get(key).None?)
              && (|nodes| == 1 && |vs| > 0 ==> r.Get(key) == Some(vs[0]))
              && (|nodes| > 1 && |vs| > 0 ==> r.Get(key) == Some(Arr(vs)) && |vs| <= |nodes|)
  {
    var nodes := env.find(scope, spec.query);
    var run := Pipe(env, spec);
    DefinedFails(run, nodes);
    PipeFails(env, spec, nodes);
    if |nodes| > 1 {
      ParseFieldMultipleOk(run, nodes, key, gd);
      ParseFieldMultipleOthers(run, nodes, key, gd);
      if ParseField(run, nodes, key, true, gd).Ok? {
        ParseFieldMultiple(run, nodes, key, gd);
        assert [] + Defined(run, nodes).value == Defined(run, nodes).value;
      }
    } else {
      ParseFieldSingle(run, nodes, key, gd);
    }
  }

  /** The elements of a collection, in property order, parsed in one group node. */
  function ParseElements(env: Host, scope: Node, elements: seq<(string, ElementSpec)>, gd: Record): Result<Record>
    decreases |elements|
  {
    if |elements| == 0 then Ok(gd)
    else
      var gd' :- ParseElement(env, scope, elements[0].0, elements[0].1, gd);
      ParseElements(env, scope, elements[1..], gd')
  }

  /** parseGroup: the group's record, null (None) when no element stored
      anything, nested right away for grouped collections. */
  function ParseGroup(env: Host, scope: Node, spec: CollectionSpec): (r: Result<Option<Record>>)
    ensures r.Err? <==> ParseElements(env, scope, spec.elements, EmptyRecord).Err?
    ensures r.Ok? ==> var gd := ParseElements(env, scope, spec.elements, EmptyRecord).value;
                      (r.value.None? <==> |gd.entries| == 0)
                      && (r.value.Some? && !Grouped(spec) ==> r.value.value == gd)
                      && (r.value.Some? && Grouped(spec) ==> r.value.value == env.nest(gd))
  {
    var gd :- ParseElements(env, scope, spec.elements, EmptyRecord);
    if |gd.entries| == 0 then Ok(None)
    else if Grouped(spec) then Ok(Some(env.nest(gd)))
    else Ok(Some(gd))
  }

  /** Parsing elements sets only the elements' keys. */
  lemma {:induction false} ParseElementsKeys(env: Host, scope: Node, elements: seq<(string, ElementSpec)>, gd: Record)
    ensures ParseElements(env, scope, elements, gd).Ok? ==>
              forall k :: (forall e :: 0 <= e < |elements| ==> elements[e].0 != k) ==>
                ParseElements(env, scope, elements, gd).value.Get(k) == gd.Get(k)
    decreases |elements|
  {
    if |elements| > 0 {
      var key := elements[0].0;
      var spec := elements[0].1;
      var nodes := env.find(scope, spec.query);
      var step := ParseElement(env, scope, key, spec, gd);
      if |nodes| > 1 {
        ParseFieldMultipleOthers(Pipe(env, spec), nodes, key, gd);
      } else {
        ParseFieldSingle(Pipe(env, spec), nodes, key, gd);
      }
      if step.Ok? {
        ParseElementsKeys(env, scope, elements[1..], step.value);
        assert forall e :: 1 <= e < |elements| ==> elements[1..][e - 1] == elements[e];
      }
    }
  }

  /** In multiple mode, whatever the field's old value, other keys never change. */
  lemma {:induction false} ParseFieldMultipleOthers(run: Node -> Result<Value>, nodes: seq<Node>, key: string, gd: Record)
    ensures ParseField(run, nodes, key, true, gd).Ok? ==>
              forall k :: k != key ==> ParseField(run, nodes, key, true, gd).value.Get(k) == gd.Get(k)
    decreases |nodes|
  {
    if |nodes| > 0 && run(nodes[0]).Ok? {
      var st := Store(gd, key, run(nodes[0]).value, true);
      if st.Ok? {
        ParseFieldMultipleOthers(run, nodes[1..], key, st.value);
      }
    }
  }

  /** The keys of the `elements` object, in property order. */
  function ElementKeys(elements: seq<(string, ElementSpec)>): (ks: seq<string>)
    ensures |ks| == |elements| && forall e :: 0 <= e < |elements| ==> ks[e] == elements[e].0
  {
    seq(|elements|, e requires 0 <= e < |elements| => elements[e].0)
  }

  /** The element's pipeline fails on one of its matches in the group node. */
  predicate ElementFails(env: Host, scope: Node, spec: ElementSpec) {
    var nodes := env.find(scope, spec.query);
    exists i :: 0 <= i < |nodes| && NodeFails(env, nodes[i], spec)
  }

  /** What the element's key holds in the group record r: nothing without
      defined values, the value itself for a single match, and the array of
      defined values for several. */
  predicate FieldHolds(env: Host, scope: Node, key: string, spec: ElementSpec, r: Record) {
    var nodes := env.find(scope, spec.query);
    Defined(Pipe(env, spec), nodes).Ok? &&
    var vs := Defined(Pipe(env, spec), nodes).value;
    (|vs| == 0 ==> r.Get(key).None?)
    && (|nodes| == 1 && |vs| > 0 ==> r.Get(key) == Some(vs[0]))
    && (|nodes| > 1 && |vs| > 0 ==> r.Get(key) == Some(Arr(vs)))
  }

  /** One element parsed into a record that does not hold its key yet fails
      exactly when the element fails on one of its matches. */
  lemma ElementStepFails(env: Host, scope: Node, key: string, spec: ElementSpec, gd: Record)
    requires gd.Get(key).None?
    ensures ParseElement(env, scope, key, spec, gd).Err? <==> ElementFails(env, scope, spec)
  {
    FieldAccumulation(env, scope, key, spec, gd);
  }

  /** One element parsed into a record that does not hold its key yet. */
  lemma ElementStep(env: Host, scope: Node, key: string, spec: ElementSpec, gd: Record)
    requires gd.Get(key).None?
    ensures ParseElement(env, scope, key, spec, gd).Err? <==> ElementFails(env, scope, spec)
    ensures ParseElement(env, scope, key, spec, gd).Ok? ==>
              FieldHolds(env, scope, key, spec, ParseElement(env, scope, key, spec, gd).value)
              && forall k :: k != key ==> ParseElement(env, scope, key, spec, gd).value.Get(k) == gd.Get(k)
  {
    FieldAccumulation(env, scope, key, spec, gd);
  }

  /** Without repetitions in the element keys, the first key does not recur. */
  lemma ElementKeysTail(elements: seq<(string, ElementSpec)>)
    requires |elements| > 0 && Distinct(ElementKeys(elements))
    ensures Distinct(ElementKeys(elements[1..]))
    ensures forall e :: 1 <= e < |elements| ==> elements[e].0 != elements[0].0
  {
    var ks := ElementKeys(elements);
    assert ElementKeys(elements[1..]) == ks[1..];
    DistinctCons(ks);
    forall e | 1 <= e < |elements|
      ensures elements[e].0 != elements[0].0
    {
      assert ks[e] in ks[1..];
    }
  }

  /** Walking elements with distinct keys, none of them in the record yet:
      the walk fails exactly when some element fails on one of its matches. */
  lemma {:induction false} ParseElementsFails(env: Host, scope: Node, elements: seq<(string, ElementSpec)>, gd: Record)
    requires Distinct(ElementKeys(elements))
    requires forall e :: 0 <= e < |elements| ==> gd.Get(elements[e].0).None?
    ensures ParseElements(env, scope, elements, gd).Err? <==> exists e :: 0 <= e < |elements| && ElementFails(env, scope, elements[e].1)
    decreases |elements|
  {
    if |elements| > 0 {
      var key := elements[0].0;
      var step := ParseElement(env, scope, key, elements[0].1, gd);
      ElementStepFails(env, scope, key, elements[0].1, gd);
      if step.Ok? {
        ElementStep(env, scope, key, elements[0].1, gd);
        ElementKeysTail(elements);
        ParseElementsFails(env, scope, elements[1..], step.value);
      }
    }
  }

  /** On success, every element's key holds what its matches contribute. */
  lemma {:induction false} ParseElementsFields(env: Host, scope: Node, elements: seq<(string, ElementSpec)>, gd: Record)
    requires Distinct(ElementKeys(elements))
    requires forall e :: 0 <= e < |elements| ==> gd.Get(elements[e].0).None?
    ensures ParseElements(env, scope, elements, gd).Ok? ==>
              forall e :: 0 <= e < |elements| ==> FieldHolds(env, scope, elements[e].0, elements[e].1, ParseElements(env, scope, elements, gd).value)
    decreases |elements|
  {
    if |elements| > 0 {
      var key := elements[0].0;
      var step := ParseElement(env, scope, key, elements[0].1, gd);
      ElementStep(env, scope, key, elements[0].1, gd);
      ElementKeysTail(elements);
      if step.Ok? {
        var rest := elements[1..];
        ParseElementsFields(env, scope, rest, step.value);
        ParseElementsKeys(env, scope, rest, step.value);
        var r := ParseElements(env, scope, elements, gd);
        if r.Ok? {
          assert r == ParseElements(env, scope, rest, step.value);
          assert r.value.Get(key) == step.value.Get(key);
          forall e | 0 <= e < |elements|
            ensures FieldHolds(env, scope, elements[e].0, elements[e].1, r.value)
          {
            if e > 0 {
              assert rest[e - 1] == elements[e];
            }
          }
        }
      }
    }
  }

  /** A group with distinct element keys fails exactly when some element
      fails on one of its matches; without failure it is null exactly when
      no element has a defined value. */
  lemma ParseGroupSpec(env: Host, scope: Node, spec: CollectionSpec)
    requires Distinct(ElementKeys(spec.elements))
    ensures ParseGroup(env, scope, spec).Err? <==> exists e :: 0 <= e < |spec.elements| && ElementFails(env, scope, spec.elements[e].1)
    ensures ParseGroup(env, scope, spec).Ok? ==>
              (ParseGroup(env, scope, spec).value.None? <==>
                 forall e :: 0 <= e < |spec.elements| ==>
                   Defined(Pipe(env, spec.elements[e].1), env.find(scope, spec.elements[e].1.query)) == Ok([]))
  {
    var elements := spec.elements;
    ParseElementsFails(env, scope, elements, EmptyRecord);
    ParseElementsFields(env, scope, elements, EmptyRecord);
    ParseElementsKeys(env, scope, elements, EmptyRecord);
    var r := ParseElements(env, scope, elements, EmptyRecord);
    if r.Ok? {
      var gd := r.value;
      EmptyIffNoProperty(gd);
      if |gd.entries| == 0 {
        forall e | 0 <= e < |elements|
          ensures Defined(Pipe(env, elements[e].1), env.find(scope, elements[e].1.query)) == Ok([])
        {
          assert FieldHolds(env, scope, elements[e].0, elements[e].1, gd);
          assert gd.Get(elements[e].0).None?;
        }
      }
      if forall e :: 0 <= e < |elements| ==> Defined(Pipe(env, elements[e].1), env.find(scope, elements[e].1.query)) == Ok([]) {
        forall k
          ensures gd.Get(k).None?
        {
          if exists e :: 0 <= e < |elements| && elements[e].0 == k {
            var e :| 0 <= e < |elements| && elements[e].0 == k;
            assert FieldHolds(env, scope, elements[e].0, elements[e].1, gd);
          }
        }
      }
    }
  }

  /** A collection whose elements have distinct keys fails exactly when some
      element fails on one of its matches in some group node. */
  lemma CollectGroupsFails(env: Host, scopes: seq<Node>, spec: CollectionSpec)
    requires Distinct(ElementKeys(spec.elements))
    ensures CollectGroups(env, scopes, spec).Err? <==>
              exists i, e :: 0 <= i < |scopes| && 0 <= e < |spec.elements| && ElementFails(env, scopes[i], spec.elements[e].1)
  {
    forall i | 0 <= i < |scopes|
      ensures ParseGroup(env, scopes[i], spec).Err? <==> exists e :: 0 <= e < |spec.elements| && ElementFails(env, scopes[i], spec.elements[e].1)
    {
      ParseGroupSpec(env, scopes[i], spec);
    }
  }

  /** A group in which no element matches anything yields null. */
  lemma EmptyGroupIsNull(env: Host, scope: Node, spec: CollectionSpec)
    requires forall e :: 0 <= e < |spec.elements| ==> |env.find(scope, spec.elements[e].1.query)| == 0
    ensures ParseGroup(env, scope, spec) == Ok(None)
  {
    NoMatchesNoFields(env, scope, spec.elements, EmptyRecord);
  }

  lemma {:induction false} NoMatchesNoFields(env: Host, scope: Node, elements: seq<(string, ElementSpec)>, gd: Record)
    requires forall e :: 0 <= e < |elements| ==> |env.find(scope, elements[e].1.query)| == 0
    ensures ParseElements(env, scope, elements, gd) == Ok(gd)
    decreases |elements|
  {
    if |elements| > 0 {
      assert ParseElement(env, scope, elements[0].0, elements[0].1, gd) == Ok(gd);
      assert forall e :: 0 <= e < |elements| - 1 ==> elements[1..][e] == elements[e + 1];
      NoMatchesNoFields(env, scope, elements[1..], gd);
    }
  }

  /** The group records of a collection, the nulls dropped, in the order of
      the group nodes (jQuery's `map` skips null results). */
  function CollectGroups(env: Host, scopes: seq<Node>, spec: CollectionSpec): (r: Result<seq<Record>>)
    ensures r.Ok? ==> |r.value| <= |scopes|
    ensures r.Err? <==> exists i :: 0 <= i < |scopes| && ParseGroup(env, scopes[i], spec).Err?
    ensures r.Ok? && (forall i :: 0 <= i < |scopes| ==> ParseGroup(env, scopes[i], spec).value.Some?) ==>
              |r.value| == |scopes| && forall i :: 0 <= i < |scopes| ==> r.value[i] == ParseGroup(env, scopes[i], spec).value.value
    decreases |scopes|
  {
    if |scopes| == 0 then Ok([])
    else
      assert forall i :: 1 <= i < |scopes| ==> scopes[1..][i - 1] == scopes[i];
      assert forall i :: 0 <= i < |scopes| - 1 ==> scopes[i + 1] == scopes[1..][i];
      match ParseGroup(env, scopes[0], spec)
      case Err(e) => Err(e)
      case Ok(g) =>
        match CollectGroups(env, scopes[1..], spec)
        case Err(e) => Err(e)
        case Ok(rest) => Ok((if g.Some? then [g.value] else []) + rest)
  }

  /** A group that produced a record (neither an error nor null). */
  predicate Produced(g: Result<Option<Record>>) {
    g.Ok? && g.value.Some?
  }

  /** What parseGroup gives for each group node, in order. */
  function Outcomes(env: Host, scopes: seq<Node>, spec: CollectionSpec): seq<Result<Option<Record>>> {
    seq(|scopes|, i requires 0 <= i < |scopes| => ParseGroup(env, scopes[i], spec))
  }

  /** The reference for the group records: the records of the groups that
      produced one, kept in order. */
  function Records(gs: seq<Result<Option<Record>>>): seq<Record> {
    var kept := Retain(gs, Produced);
    seq(|kept|, i requires 0 <= i < |kept| => kept[i].value.value)
  }

  lemma RecordsCons(gs: seq<Result<Option<Record>>>)
    requires |gs| > 0
    ensures Records(gs) == (if Produced(gs[0]) then [gs[0].value.value] else []) + Records(gs[1..])
  {
    var rest := Retain(gs[1..], Produced);
    assert Retain(gs, Produced) == (if Produced(gs[0]) then [gs[0]] else []) + rest;
  }

  /** The group records are exactly the records the group nodes produced,
      in the order of the nodes. */
  lemma {:induction false} CollectGroupsRecords(env: Host, scopes: seq<Node>, spec: CollectionSpec)
    ensures CollectGroups(env, scopes, spec).Ok? ==> CollectGroups(env, scopes, spec).value == Records(Outcomes(env, scopes, spec))
    decreases |scopes|
  {
    if |scopes| > 0 {
      var gs := Outcomes(env, scopes, spec);
      assert gs[1..] == Outcomes(env, scopes[1..], spec);
      CollectGroupsRecords(env, scopes[1..], spec);
      RecordsCons(gs);
    }
  }

  /** No records come out exactly when no group produced one. */
  lemma RecordsEmpty(gs: seq<Result<Option<Record>>>)
    ensures |Records(gs)| == 0 <==> forall i :: 0 <= i < |gs| ==> !Produced(gs[i])
  {
    RetainMembers(gs, Produced);
    if |Records(gs)| > 0 {
      assert Retain(gs, Produced)[0] in Retain(gs, Produced);
    }
  }

  /** A collection without errors has no group records exactly when every
      group node yielded null. */
  lemma CollectGroupsEmpty(env: Host, scopes: seq<Node>, spec: CollectionSpec)
    ensures CollectGroups(env, scopes, spec).Ok? ==>
              (|CollectGroups(env, scopes, spec).value| == 0 <==> forall i :: 0 <= i < |scopes| ==> ParseGroup(env, scopes[i], spec) == Ok(None))
  {
    var gs := Outcomes(env, scopes, spec);
    CollectGroupsRecords(env, scopes, spec);
    RecordsEmpty(gs);
    assert forall i :: 0 <= i < |scopes| ==> gs[i] == ParseGroup(env, scopes[i], spec);
  }

  /** The records a collection produces from its group records: the first
      record zipped for an ungrouped collection, the records as they are for
      a grouped one, then the `each` values written into every record;
      a key `each` does not configure keeps its value. */
  function CollectionRecords(env: Host, spec: CollectionSpec, groups: seq<Record>, requestParameters: Option<Record>): (r: Result<seq<Record>>)
    requires |groups| > 0
    ensures Grouped(spec) ==> r.Ok? && |r.value| == |groups|
    ensures !Grouped(spec) ==> (r.Ok? <==> MakeCollection(env, groups[0]).Ok?)
    ensures !Grouped(spec) && r.Err? ==> r.error == MakeCollection(env, groups[0]).error
    ensures r.Ok? ==>
              var base := if Grouped(spec) then groups else MakeCollection(env, groups[0]).value;
              |r.value| == |base|
              && (forall i :: 0 <= i < |base| ==>
                    r.value[i] == if spec.each.Some? then EachRow(base[i], spec.each.value, requestParameters) else base[i])
              && forall i, k :: 0 <= i < |base| && (spec.each.None? || forall c :: 0 <= c < |spec.each.value| ==> spec.each.value[c].0 != k) ==>
                   r.value[i].Get(k) == base[i].Get(k)
  {
    var data :- if Grouped(spec) then Ok(groups) else MakeCollection(env, groups[0]);
    if spec.each.Some? then Ok(Each(data, spec.each.value, requestParameters)) else Ok(data)
  }

  function AsArray(rows: seq<Record>): Value {
    Arr(seq(|rows|, i requires 0 <= i < |rows| => Obj(rows[i])))
  }

  /** parse: the collection is stored under its name only when at least one
      group produced data; nothing else in the scraped object changes. */
  function Parse(env: Host, doc: Node, spec: CollectionSpec, requestParameters: Option<Record>, scraped: Record): (r: Result<Record>)
    ensures var groups := CollectGroups(env, env.find(doc, if Grouped(spec) then spec.group.value else "body"), spec);
            (r.Err? <==> groups.Err? || (|groups.value| > 0 && CollectionRecords(env, spec, groups.value, requestParameters).Err?))
            && (r.Ok? && |groups.value| == 0 ==> r.value == scraped)
            && (r.Ok? && |groups.value| > 0 ==>
                  var records := CollectionRecords(env, spec, groups.value, requestParameters).value;
                  r.value.Get(spec.name).Some? && r.value.Get(spec.name).value.Arr?
                  && |r.value.Get(spec.name).value.items| == |records|
                  && forall i :: 0 <= i < |records| ==> r.value.Get(spec.name).value.items[i] == Obj(records[i]))
    ensures r.Ok? ==> forall k :: k != spec.name ==> r.value.Get(k) == scraped.Get(k)
  {
    var scopes := env.find(doc, if Grouped(spec) then spec.group.value else "body");
    var groups :- CollectGroups(env, scopes, spec);
    if |groups| == 0 then Ok(scraped)
    else
      var data :- CollectionRecords(env, spec, groups, requestParameters);
      Ok(scraped.Set(spec.name, AsArray(data)))
  }

  /** A collection whose every group node yields null leaves the scraped
      object as it was. */
  lemma ParseAllNull(env: Host, doc: Node, spec: CollectionSpec, requestParameters: Option<Record>, scraped: Record)
    requires var scopes := env.find(doc, if Grouped(spec) then spec.group.value else "body");
             forall i :: 0 <= i < |scopes| ==> ParseGroup(env, scopes[i], spec) == Ok(None)
    ensures Parse(env, doc, spec, requestParameters, scraped) == Ok(scraped)
  {
    var scopes := env.find(doc, if Grouped(spec) then spec.group.value else "body");
    CollectGroupsEmpty(env, scopes, spec);
  }

  /** The collections of the configuration parsed one after another into
      the page's scraped object. */
  function ScrapePage(env: Host, doc: Node, collections: seq<CollectionSpec>, requestParameters: Option<Record>, scraped: Record): Result<Record>
    decreases |collections|
  {
    if |collections| == 0 then Ok(scraped)
    else
      var scraped' :- Parse(env, doc, collections[0], requestParameters, scraped);
      ScrapePage(env, doc, collections[1..], requestParameters, scraped')
  }

  /** A page's scraped object holds nothing but collections named in the
      configuration. */
  lemma {:induction false} ScrapePageNames(env: Host, doc: Node, collections: seq<CollectionSpec>, requestParameters: Option<Record>, scraped: Record)
    ensures ScrapePage(env, doc, collections, requestParameters, scraped).Ok? ==>
              forall k :: (forall c :: 0 <= c < |collections| ==> collections[c].name != k) ==>
                ScrapePage(env, doc, collections, requestParameters, scraped).value.Get(k) == scraped.Get(k)
    decreases |collections|
  {
    if |collections| > 0 {
      var step := Parse(env, doc, collections[0], requestParameters, scraped);
      if step.Ok? {
        ScrapePageNames(env, doc, collections[1..], requestParameters, step.value);
        assert forall c :: 1 <= c < |collections| ==> collections[1..][c - 1] == collections[c];
      }
    }
  }
}

=== FILE: seqs.dfy ===
/** Order-preserving selection from sequences, and distinctness. */
module Seqs {

  /** The elements of s that satisfy keep, in their original order. */
  function Retain<T>(s: seq<T>, keep: T -> bool): (r: seq<T>)
    ensures |r| <= |s|
    ensures forall i :: 0 <= i < |r| ==> keep(r[i])
    decreases |s|
  {
    if |s| == 0 then [] else
      var rest := Retain(s[1..], keep);
      var r := (if keep(s[0]) then [s[0]] else []) + rest;
      assert forall i :: 0 < i < |r| && keep(s[0]) ==> r[i] == rest[i - 1];
      r
  }

  /** What is kept is exactly the elements of s that satisfy keep. */
  lemma {:induction false} RetainMembers<T(!new)>(s: seq<T>, keep: T -> bool)
    ensures forall x :: x in Retain(s, keep) <==> x in s && keep(x)
    decreases |s|
  {
    if |s| > 0 {
      RetainMembers(s[1..], keep);
      assert s == [s[0]] + s[1..];
    }
  }

  /** Retaining distributes over concatenation, so it keeps relative order. */
  lemma {:induction false} RetainAppend<T(!new)>(a: seq<T>, b: seq<T>, keep: T -> bool)
    ensures Retain(a + b, keep) == Retain(a, keep) + Retain(b, keep)
    decreases |a|
  {
    if |a| == 0 {
      assert a + b == b;
    } else {
      assert (a + b)[1..] == a[1..] + b;
      RetainAppend(a[1..], b, keep);
    }
  }

  /** A sequence whose every element is kept is returned unchanged. */
  lemma {:induction false} RetainAll<T(!new)>(s: seq<T>, keep: T -> bool)
    requires forall i :: 0 <= i < |s| ==> keep(s[i])
    ensures Retain(s, keep) == s
    decreases |s|
  {
    if |s| > 0 {
      RetainAll(s[1..], keep);
    }
  }

  /** A sequence none of whose elements is kept is dropped entirely. */
  lemma {:induction false} RetainNone<T(!new)>(s: seq<T>, keep: T -> bool)
    requires forall i :: 0 <= i < |s| ==> !keep(s[i])
    ensures Retain(s, keep) == []
    decreases |s|
  {
    if |s| > 0 {
      RetainNone(s[1..], keep);
    }
  }

  predicate Distinct<T(==,!new)>(s: seq<T>) {
    forall i, j :: 0 <= i < j < |s| ==> s[i] != s[j]
  }

  /** The position of row u, column j in rows of width m. */
  function Cell(u: nat, m: nat, j: nat): nat {
    u * m + j
  }

  /** f applied to every pair, the elements of xs on the outside and those of
      ys within: the pair (xs[u], ys[j]) sits at position u * |ys| + j. */
  function Product<A, B, C>(xs: seq<A>, ys: seq<B>, f: (A, B) -> C): (zs: seq<C>)
    ensures |zs| == |xs| * |ys|
    ensures forall u, j :: 0 <= u < |xs| && 0 <= j < |ys| ==> Cell(u, |ys|, j) < |zs| && zs[Cell(u, |ys|, j)] == f(xs[u], ys[j])
    decreases |xs|
  {
    if |xs| == 0 then []
    else
      var first := seq(|ys|, j requires 0 <= j < |ys| => f(xs[0], ys[j]));
      var rest := Product(xs[1..], ys, f);
      LengthStep(|xs|, |ys|);
      forall u, j | 0 <= u < |xs| && 0 <= j < |ys|
        ensures Cell(u, |ys|, j) < |first + rest| && (first + rest)[Cell(u, |ys|, j)] == f(xs[u], ys[j])
      {
        if u > 0 {
          RowStep(u, |xs|, |ys|, j);
          assert xs[1..][u - 1] == xs[u];
          assert rest[Cell(u - 1, |ys|, j)] == f(xs[u], ys[j]);
        } else {
          assert Cell(u, |ys|, j) == j;
        }
      }
      first + rest
  }

  /** The product of two pairs, row by row. */
  lemma ProductTwoByTwo<A, B, C>(x0: A, x1: A, y0: B, y1: B, f: (A, B) -> C)
    ensures Product([x0, x1], [y0, y1], f) == [f(x0, y0), f(x0, y1), f(x1, y0), f(x1, y1)]
  {
    var ys := [y0, y1];
    assert [x0, x1][1..] == [x1] && [x1][1..] == [];
    var row0 := seq(|ys|, j requires 0 <= j < |ys| => f(x0, ys[j]));
    var row1 := seq(|ys|, j requires 0 <= j < |ys| => f(x1, ys[j]));
    assert row0 == [f(x0, y0), f(x0, y1)] && row1 == [f(x1, y0), f(x1, y1)];
    assert Product([x1], ys, f) == row1 + [];
    assert Product([x0, x1], ys, f) == row0 + (row1 + []);
  }

  lemma LengthStep(n: nat, m: nat)
    requires n > 0
    ensures m + (n - 1) * m == n * m
  {
  }

  /** A cell of an n-row table of width m lies inside it. */
  lemma CellBound(u: nat, n: nat, m: nat, j: nat)
    requires u < n && j < m
    ensures Cell(u, m, j) < n * m
  {
    assert u * m + j < u * m + m == (u + 1) * m;
    assert (u + 1) * m <= n * m;
  }

  lemma RowStep(u: nat, n: nat, m: nat, j: nat)
    requires 0 < u < n && j < m
    ensures Cell(u, m, j) == m + Cell(u - 1, m, j) && Cell(u - 1, m, j) < (n - 1) * m
  {
    assert (u - 1) * m + j < (u - 1) * m + m == u * m;
    assert u * m <= (n - 1) * m;
  }

  /** The head of a sequence without repetitions does not recur in its tail,
      which has no repetitions either. */
  lemma DistinctCons<T(!new)>(s: seq<T>)
    requires |s| > 0 && Distinct(s)
    ensures s[0] !in s[1..] && Distinct(s[1..])
  {
    var t := s[1..];
    forall a | 0 <= a < |t|
      ensures t[a] != s[0]
    {
      assert t[a] == s[a + 1];
    }
    forall a, b | 0 <= a < b < |t|
      ensures t[a] != t[b]
    {
      assert t[a] == s[a + 1] && t[b] == s[b + 1];
    }
  }
}

=== FILE: strings.dfy ===
/** The parts of JavaScript's String semantics the scraper relies on:
    `indexOf`, `replace` with a string pattern, and `trim`. */
module JsStrings {
  import opened Results

  /** pat occurs in s starting at position i. */
  predicate OccursAt(s: string, pat: string, i: nat) {
    i + |pat| <= |s| && s[i..i + |pat|] == pat
  }

  /** The first occurrence of pat at or after from. */
  function IndexFrom(s: string, pat: string, from: nat): (o: Option<nat>)
    ensures o.Some? ==> from <= o.value && OccursAt(s, pat, o.value)
    ensures o.Some? ==> forall i: nat :: from <= i < o.value ==> !OccursAt(s, pat, i)
    ensures o.None? ==> forall i: nat :: from <= i ==> !OccursAt(s, pat, i)
    decreases |s| - from
  {
    if OccursAt(s, pat, from) then Some(from)
    else if from + |pat| >= |s| then None
    else IndexFrom(s, pat, from + 1)
  }

  /** `s.indexOf(pat)`, with None for -1. */
  function IndexOf(s: string, pat: string): (o: Option<nat>)
    ensures o.Some? ==> OccursAt(s, pat, o.value)
    ensures o.Some? ==> forall i: nat :: i < o.value ==> !OccursAt(s, pat, i)
    ensures o.None? ==> forall i: nat :: !OccursAt(s, pat, i)
  {
    IndexFrom(s, pat, 0)
  }

  /** The expansion of a replacement string (GetSubstitution, section 22.1.3.19.1
      of ECMAScript 2022) for a string pattern, which has no capture groups:
      `$$` is a dollar sign, `$&` the matched text, `` $` `` the text before the
      match, `$'` the text after it; every other `$` is literal. */
  function Substitution(matched: string, before: string, after: string, replacement: string): (r: string)
    ensures '$' !in replacement ==> r == replacement
    ensures replacement == "$&" ==> r == matched
    decreases |replacement|
  {
    if |replacement| == 0 then ""
    else if replacement[0] == '$' && |replacement| >= 2 then
      var c := replacement[1];
      if c == '$' then "$" + Substitution(matched, before, after, replacement[2..])
      else if c == '&' then matched + Substitution(matched, before, after, replacement[2..])
      else if c == '`' then before + Substitution(matched, before, after, replacement[2..])
      else if c == '\'' then after + Substitution(matched, before, after, replacement[2..])
      else "$" + Substitution(matched, before, after, replacement[1..])
    else
      assert '$' !in replacement ==> '$' !in replacement[1..] by {
        if '$' in replacement[1..] {
          var i :| 0 <= i < |replacement[1..]| && replacement[1..][i] == '$';
          assert replacement[i + 1] == '$';
        }
      }
      assert replacement == [replacement[0]] + replacement[1..];
      [replacement[0]] + Substitution(matched, before, after, replacement[1..])
  }

  /** `s.replace(pat, replacement)` for a string pattern: only the first
      occurrence is replaced; without one, s is returned unchanged. */
  function ReplaceFirst(s: string, pat: string, replacement: string): (r: string)
    ensures IndexOf(s, pat).None? ==> r == s
    ensures IndexOf(s, pat).Some? ==>
              var p := IndexOf(s, pat).value;
              var tail := |s| - (p + |pat|);
              p + tail <= |r| && r[..p] == s[..p] && r[|r| - tail..] == s[p + |pat|..]
  {
    match IndexOf(s, pat)
    case None => s
    case Some(p) => s[..p] + Substitution(pat, s[..p], s[p + |pat|..], replacement) + s[p + |pat|..]
  }

  /** Without an occurrence nothing changes; a dollar-free replacement takes
      the place of exactly the first occurrence, wherever it is. */
  lemma ReplaceFirstSpec(s: string, pat: string, replacement: string)
    ensures (forall i: nat :: !OccursAt(s, pat, i)) ==> ReplaceFirst(s, pat, replacement) == s
    ensures forall p: nat ::
              OccursAt(s, pat, p) && (forall i: nat :: i < p ==> !OccursAt(s, pat, i)) && '$' !in replacement
              ==> ReplaceFirst(s, pat, replacement) == s[..p] + replacement + s[p + |pat|..]
  {
    forall p: nat | OccursAt(s, pat, p) && (forall i: nat :: i < p ==> !OccursAt(s, pat, i)) && '$' !in replacement
      ensures ReplaceFirst(s, pat, replacement) == s[..p] + replacement + s[p + |pat|..]
    {
      assert IndexOf(s, pat) == Some(p);
    }
  }

  /** WhiteSpace and LineTerminator code points of ECMAScript (sections 12.2
      and 12.3 of ECMAScript 2022), the characters `String.prototype.trim`
      removes; the space separators are those of Unicode category Zs. */
  predicate IsWhiteSpace(c: char) {
    || c == '\t' || c == '\U{000B}' || c == '\U{000C}' || c == ' ' || c == '\U{00A0}' || c == '\U{FEFF}'
    || c == '\U{1680}' || ('\U{2000}' <= c <= '\U{200A}') || c == '\U{202F}' || c == '\U{205F}' || c == '\U{3000}'
    || c == '\n' || c == '\r' || c == '\U{2028}' || c == '\U{2029}'
  }

  /* Trimming takes the white-space test as a parameter `ws`;
     `String.prototype.trim` is `Trim(s, IsWhiteSpace)`. */

  /** The first index from i on that holds no white space, or |s|. */
  function FirstKept(s: string, ws: char -> bool, i: nat): (n: nat)
    requires i <= |s|
    ensures i <= n <= |s|
    ensures forall j :: i <= j < n ==> ws(s[j])
    ensures n < |s| ==> !ws(s[n])
    decreases |s| - i
  {
    if i < |s| && ws(s[i]) then FirstKept(s, ws, i + 1) else i
  }

  /** The end of s[lo..hi] once its trailing white space is dropped. */
  function LastKept(s: string, ws: char -> bool, lo: nat, hi: nat): (m: nat)
    requires lo <= hi <= |s|
    ensures lo <= m <= hi
    ensures forall j :: m <= j < hi ==> ws(s[j])
    ensures m > lo ==> !ws(s[m - 1])
    decreases hi
  {
    if hi > lo && ws(s[hi - 1]) then LastKept(s, ws, lo, hi - 1) else hi
  }

  /** The number of leading white-space characters of s. */
  function Leading(s: string, ws: char -> bool): nat {
    FirstKept(s, ws, 0)
  }

  /** `s.trim()`: the part of s between its leading and its trailing white
      space, which itself neither starts nor ends with white space. */
  function Trim(s: string, ws: char -> bool): (r: string)
    ensures Leading(s, ws) + |r| <= |s|
    ensures r == s[Leading(s, ws)..Leading(s, ws) + |r|]
    ensures forall i :: 0 <= i < Leading(s, ws) ==> ws(s[i])
    ensures forall i :: Leading(s, ws) + |r| <= i < |s| ==> ws(s[i])
    ensures r == [] || (!ws(r[0]) && !ws(r[|r| - 1]))
  {
    var a := FirstKept(s, ws, 0);
    var b := LastKept(s, ws, a, |s|);
    s[a..b]
  }

  /** A string that neither starts nor ends with white space is its own trim. */
  lemma TrimTrimmed(s: string, ws: char -> bool)
    requires s == [] || (!ws(s[0]) && !ws(s[|s| - 1]))
    ensures Trim(s, ws) == s
  {
  }
}

=== FILE: urls.dfy ===
/** Expanding the scraper's source into the URLs it loads: a single URL or a
    list of them, and for a parameter map every combination of the
    parameters' values substituted into every URL. */
module Urls {
  import opened Results
  import opened Seqs
  import opened Values
  import opened Environment
  import opened JsStrings
  import opened Cartesian

  /** The `src` argument of a scrape: one URL or an array of URLs. */
  datatype Source = Single(url: string) | Many(urls: seq<string>)

  /** One page to load: a URL as given, or a URL with its placeholders
      filled in together with the parameter values used for it. */
  datatype Target = Plain(url: string) | Permutated(url: string, requestParameters: Record)

  /** The parameter names in order, and for each the list of its values. */
  datatype Params = Params(keys: seq<string>, values: seq<seq<Value>>)

  /** An array parameter lists its values; any other value is its only one. */
  function AsList(v: Value): seq<Value> {
    if v.Arr? then v.items else [v]
  }

  /** The parameter map split into its names and their value lists, both
      in the map's property order. */
  function ExtractParams(options: Record): (p: Params)
    ensures p.keys == options.Keys()
    ensures |p.values| == |p.keys|
    ensures forall i :: 0 <= i < |p.values| ==> p.values[i] == AsList(options.entries[i].value)
  {
    Params(options.Keys(), seq(|options.entries|, i requires 0 <= i < |options.entries| => AsList(options.entries[i].value)))
  }

  /** For an object with distinct keys, the i-th name is paired with the
      value list of exactly that property. */
  lemma ExtractParamsLookup(options: Record, i: nat)
    requires Distinct(options.Keys()) && i < |options.entries|
    ensures ExtractParams(options).keys[i] == options.entries[i].key
    ensures options.Get(ExtractParams(options).keys[i]) == Some(options.entries[i].value)
    ensures ExtractParams(options).values[i] == AsList(options.Get(ExtractParams(options).keys[i]).value)
  {
    FindDistinct(options.entries, i);
  }

  function Join(parts: seq<string>, sep: string): string
    decreases |parts|
  {
    if |parts| == 0 then "" else if |parts| == 1 then parts[0] else parts[0] + sep + Join(parts[1..], sep)
  }

  /** `String(v)`, as `replace` converts its replacement argument: arrays
      are joined with commas, their null and undefined elements becoming
      empty; numbers and dates are rendered by the host. */
  function ToJsString(env: Host, v: Value): (r: string)
    ensures v.Str? ==> r == v.s
    ensures v.Arr? && |v.items| == 0 ==> r == ""
    ensures v.Arr? && |v.items| == 1 ==>
              r == if v.items[0].Undefined? || v.items[0].Null? then "" else ToJsString(env, v.items[0])
    decreases v
  {
    match v
    case Undefined => "undefined"
    case Null => "null"
    case Bool(b) => if b then "true" else "false"
    case Num(n) => env.numberToString(n)
    case Str(s) => s
    case DateObj(t) => env.dateToString(t)
    case Arr(items) =>
      Join(seq(|items|, i requires 0 <= i < |items| =>
                 if items[i].Undefined? || items[i].Null? then "" else ToJsString(env, items[i])), ",")
    case Obj(_) => "[object Object]"
  }

  /** The placeholder a parameter named key replaces. */
  function Placeholder(key: string): string {
    ":" + key
  }

  /** `permutation[index]`: undefined past the end. */
  function At(perm: seq<Value>, i: nat): Value {
    if i < |perm| then perm[i] else Undefined
  }

  /** The parameters the walk records, which do not depend on the URL. */
  function Recorded(params: Record, keys: seq<string>, perm: seq<Value>): Record
    decreases |keys|
  {
    if |keys| == 0 then params
    else Recorded(params.Set(keys[0], At(perm, 0)), keys[1..], if |perm| > 0 then perm[1..] else [])
  }

  /** Walks the parameter names with one combination of values: each name's
      first placeholder in the URL is replaced by its value, and the value
      is recorded under the name. What is recorded does not depend on the URL. */
  function Fill(env: Host, url: string, params: Record, keys: seq<string>, perm: seq<Value>): (t: (string, Record))
    ensures t.1 == Recorded(params, keys, perm)
    decreases |keys|
  {
    if |keys| == 0 then (url, params)
    else
      var v := At(perm, 0);
      Fill(env, ReplaceFirst(url, Placeholder(keys[0]), ToJsString(env, v)), params.Set(keys[0], v),
           keys[1..], if |perm| > 0 then perm[1..] else [])
  }

  /** The recorded parameters: names outside keys keep their values, every
      name gets the value of its last position in keys, and the recorded
      names are the old ones and keys. */
  lemma FillParameters(env: Host, url: string, params: Record, keys: seq<string>, perm: seq<Value>)
    ensures forall k :: k !in keys ==> Fill(env, url, params, keys, perm).1.Get(k) == params.Get(k)
    ensures forall i :: 0 <= i < |keys| && keys[i] !in keys[i + 1..] ==> Fill(env, url, params, keys, perm).1.Get(keys[i]) == Some(At(perm, i))
    ensures forall k :: k in Fill(env, url, params, keys, perm).1.Keys() <==> k in params.Keys() || k in keys
  {
    RecordedKeeps(params, keys, perm);
    RecordedLast(params, keys, perm);
    RecordedKeys(params, keys, perm);
  }

  lemma {:induction false} RecordedKeeps(params: Record, keys: seq<string>, perm: seq<Value>)
    ensures forall k :: k !in keys ==> Recorded(params, keys, perm).Get(k) == params.Get(k)
    decreases |keys|
  {
    if |keys| > 0 {
      var tail := keys[1..];
      RecordedKeeps(params.Set(keys[0], At(perm, 0)), tail, if |perm| > 0 then perm[1..] else []);
      forall k | k !in keys
        ensures k !in tail && k != keys[0]
      {
      }
    }
  }

  lemma {:induction false} RecordedLast(params: Record, keys: seq<string>, perm: seq<Value>)
    ensures forall i :: 0 <= i < |keys| && keys[i] !in keys[i + 1..] ==> Recorded(params, keys, perm).Get(keys[i]) == Some(At(perm, i))
    decreases |keys|
  {
    if |keys| > 0 {
      var params' := params.Set(keys[0], At(perm, 0));
      var perm' := if |perm| > 0 then perm[1..] else [];
      var tail := keys[1..];
      var r := Recorded(params', tail, perm');
      assert Recorded(params, keys, perm) == r;
      RecordedLast(params', tail, perm');
      RecordedKeeps(params', tail, perm');
      forall i | 0 <= i < |keys| && keys[i] !in keys[i + 1..]
        ensures r.Get(keys[i]) == Some(At(perm, i))
      {
        if i == 0 {
          assert keys[0] !in tail;
        } else {
          assert tail[i - 1] == keys[i] && tail[i..] == keys[i + 1..];
          assert At(perm', i - 1) == At(perm, i);
        }
      }
    }
  }

  lemma {:induction false} RecordedKeys(params: Record, keys: seq<string>, perm: seq<Value>)
    ensures forall k :: k in Recorded(params, keys, perm).Keys() <==> k in params.Keys() || k in keys
    decreases |keys|
  {
    if |keys| > 0 {
      var tail := keys[1..];
      RecordedKeys(params.Set(keys[0], At(perm, 0)), tail, if |perm| > 0 then perm[1..] else []);
      forall k | k in keys
        ensures k == keys[0] || k in tail
      {
      }
      forall k | k in tail
        ensures k in keys
      {
      }
    }
  }

  /** A URL holding none of the placeholders comes out of the walk
      unchanged, absolute URLs with their scheme colon included. */
  lemma {:induction false} FillWithoutPlaceholder(env: Host, url: string, params: Record, keys: seq<string>, perm: seq<Value>)
    requires forall i :: 0 <= i < |keys| ==> IndexOf(url, Placeholder(keys[i])).None?
    ensures Fill(env, url, params, keys, perm).0 == url
    decreases |keys|
  {
    if |keys| > 0 {
      var v := At(perm, 0);
      assert ReplaceFirst(url, Placeholder(keys[0]), ToJsString(env, v)) == url;
      assert forall i :: 0 <= i < |keys[1..]| ==> keys[1..][i] == keys[i + 1];
      FillWithoutPlaceholder(env, url, params.Set(keys[0], v), keys[1..], if |perm| > 0 then perm[1..] else []);
    }
  }

  lemma FillWithoutPlaceholderIf(env: Host, url: string, keys: seq<string>, perm: seq<Value>)
    ensures (forall i :: 0 <= i < |keys| ==> IndexOf(url, Placeholder(keys[i])).None?) ==>
              Fill(env, url, EmptyRecord, keys, perm).0 == url
  {
    if forall i :: 0 <= i < |keys| ==> IndexOf(url, Placeholder(keys[i])).None? {
      FillWithoutPlaceholder(env, url, EmptyRecord, keys, perm);
    }
  }

  /** A URL without any colon holds no placeholder. */
  lemma ColonFreeHasNoPlaceholder(url: string, key: string)
    requires ':' !in url
    ensures IndexOf(url, Placeholder(key)).None?
  {
    var pat := Placeholder(key);
    forall i: nat
      ensures !OccursAt(url, pat, i)
    {
      if i + |pat| <= |url| {
        assert url[i..i + |pat|][0] == url[i];
      }
    }
  }

  /** The page for one URL and one combination of parameter values. */
  function Expand(env: Host, url: string, keys: seq<string>, perm: seq<Value>): (t: Target)
    ensures t.Permutated? && t.requestParameters == Recorded(EmptyRecord, keys, perm)
    ensures (forall i :: 0 <= i < |keys| ==> IndexOf(url, Placeholder(keys[i])).None?) ==> t.url == url
  {
    FillWithoutPlaceholderIf(env, url, keys, perm);
    var t := Fill(env, url, EmptyRecord, keys, perm);
    Permutated(t.0, t.1)
  }

  /** The pages for a list of URLs and a parameter map: every URL with every
      combination of values, the URLs in order on the outside. An empty map
      makes the combination step read the length of a missing first list, a
      TypeError. */
  function PermutateUrls(env: Host, urls: seq<string>, options: Record): (r: Result<seq<Target>>)
    ensures r.Err? <==> |options.entries| == 0
    ensures r.Ok? ==> |r.value| == |urls| * Count(ExtractParams(options).values)
    ensures r.Ok? ==> forall u, ds :: 0 <= u < |urls| && Digits(ExtractParams(options).values, ds) ==>
              var p := ExtractParams(options);
              Cell(u, Count(p.values), Rank(p.values, ds)) < |r.value|
              && r.value[Cell(u, Count(p.values), Rank(p.values, ds))] == Expand(env, urls[u], p.keys, Choice(p.values, ds))
  {
    var p := ExtractParams(options);
    if |p.values| == 0 then Err(TypeError("Cannot read properties of undefined (reading 'length')"))
    else
      var perms := Permutations(p.values);
      Ok(Product(urls, perms, (url, perm) => Expand(env, url, p.keys, perm)))
  }

  /** The URLs a source names, in order. */
  function UrlList(src: Source): seq<string> {
    match src
    case Single(url) => [url]
    case Many(urls) => urls
  }

  /** The pages a scrape loads: the source's URLs as they are when no
      parameter map is given, otherwise their permutated forms. */
  function CollectUrls(env: Host, src: Source, params: Option<Record>): (r: Result<seq<Target>>)
    ensures params.None? ==> r.Ok? && |r.value| == |UrlList(src)|
                             && forall i :: 0 <= i < |r.value| ==> r.value[i] == Plain(UrlList(src)[i])
    ensures params.Some? ==> r == PermutateUrls(env, UrlList(src), params.value)
  {
    var urls := UrlList(src);
    if params.None? then Ok(seq(|urls|, i requires 0 <= i < |urls| => Plain(urls[i])))
    else PermutateUrls(env, urls, params.value)
  }

  /** Every permutated page is the expansion of some URL with some
      combination, which takes for each name one of its listed values. */
  lemma PageCombination(env: Host, urls: seq<string>, options: Record, pos: nat) returns (c: seq<Value>)
    requires PermutateUrls(env, urls, options).Ok? && pos < |PermutateUrls(env, urls, options).value|
    ensures |c| == |options.entries|
    ensures forall i :: 0 <= i < |c| ==> c[i] in AsList(options.entries[i].value)
    ensures exists u :: 0 <= u < |urls| && PermutateUrls(env, urls, options).value[pos] == Expand(env, urls[u], options.Keys(), c)
  {
    var p := ExtractParams(options);
    var u, ds := PageAt(env, urls, options, pos);
    c := Choice(p.values, ds);
    ChoicePicks(p.values, ds);
  }

  /** The URL and the digit vector behind a position of the pages. */
  lemma PageAt(env: Host, urls: seq<string>, options: Record, pos: nat) returns (u: nat, ds: seq<nat>)
    requires PermutateUrls(env, urls, options).Ok? && pos < |PermutateUrls(env, urls, options).value|
    ensures u < |urls| && Digits(ExtractParams(options).values, ds)
    ensures PermutateUrls(env, urls, options).value[pos]
            == Expand(env, urls[u], ExtractParams(options).keys, Choice(ExtractParams(options).values, ds))
  {
    var p := ExtractParams(options);
    var n := Count(p.values);
    var k;
    u, k := Decompose(pos, |urls|, n);
    RankOnto(p.values, k);
    ds :| Digits(p.values, ds) && Rank(p.values, ds) == k;
  }

  /** In a sequence without repetitions every element occurs for the last time. */
  lemma LastOccurrence(keys: seq<string>, i: nat)
    requires Distinct(keys) && i < |keys|
    ensures keys[i] !in keys[i + 1..]
  {
    var rest := keys[i + 1..];
    forall j | 0 <= j < |rest|
      ensures rest[j] != keys[i]
    {
      assert rest[j] == keys[i + 1 + j];
    }
  }

  /** The page of URL u and digit vector ds records exactly the parameter
      names of the map, each with the value the combination picks for it,
      which is one of the values listed for it. */
  lemma PermutatedParameters(env: Host, urls: seq<string>, options: Record, u: nat, ds: seq<nat>)
    requires Distinct(options.Keys()) && |options.entries| > 0
    requires u < |urls| && Digits(ExtractParams(options).values, ds)
    ensures var p := ExtractParams(options);
            var pos := Cell(u, Count(p.values), Rank(p.values, ds));
            PermutateUrls(env, urls, options).Ok? && pos < |PermutateUrls(env, urls, options).value|
            && var t := PermutateUrls(env, urls, options).value[pos];
               t.Permutated?
               && (forall k :: k in t.requestParameters.Keys() <==> k in options.Keys())
               && forall i :: 0 <= i < |options.entries| ==>
                    t.requestParameters.Get(options.entries[i].key) == Some(Choice(p.values, ds)[i])
                    && Choice(p.values, ds)[i] in AsList(options.entries[i].value)
  {
    var p := ExtractParams(options);
    var keys := options.Keys();
    var c := Choice(p.values, ds);
    var t := Expand(env, urls[u], keys, c);
    assert PermutateUrls(env, urls, options).value[Cell(u, Count(p.values), Rank(p.values, ds))] == t;
    ChoicePicks(p.values, ds);
    FillParameters(env, urls[u], EmptyRecord, keys, c);
    forall i | 0 <= i < |options.entries|
      ensures t.requestParameters.Get(options.entries[i].key) == Some(c[i])
    {
      LastOccurrence(keys, i);
      assert keys[i] == options.entries[i].key;
    }
  }

  /** Two URLs and one parameter with two values: the URLs stay in order and
      the values are taken from the last to the first. */
  lemma PermutateUrlsExample(env: Host)
    ensures PermutateUrls(env, ["a/:page", "b/:page"], Record([Entry("page", Arr([Str("1"), Str("2")]))]))
            == Ok([Permutated("a/2", Record([Entry("page", Str("2"))])),
                   Permutated("a/1", Record([Entry("page", Str("1"))])),
                   Permutated("b/2", Record([Entry("page", Str("2"))])),
                   Permutated("b/1", Record([Entry("page", Str("1"))]))])
  {
    var urls := ["a/:page", "b/:page"];
    var options := Record([Entry("page", Arr([Str("1"), Str("2")]))]);
    ExampleCombinations(options);
    ExampleProduct(env, urls, options);
    ExampleRows(env);
  }

  lemma ExampleRows(env: Host)
    ensures Expand(env, "a/:page", ["page"], [Str("2")]) == Permutated("a/2", Record([Entry("page", Str("2"))]))
    ensures Expand(env, "a/:page", ["page"], [Str("1")]) == Permutated("a/1", Record([Entry("page", Str("1"))]))
    ensures Expand(env, "b/:page", ["page"], [Str("2")]) == Permutated("b/2", Record([Entry("page", Str("2"))]))
    ensures Expand(env, "b/:page", ["page"], [Str("1")]) == Permutated("b/1", Record([Entry("page", Str("1"))]))
  {
    ExampleRowsFor(env, 'a');
    ExampleRowsFor(env, 'b');
    ExampleStrings();
  }

  /** The concatenations the example needs, as one small lemma on literals
      so that the larger proofs do not unfold strings. */
  lemma ExampleStrings()
    ensures ['a', '/'] + ":page" == "a/:page" && ['b', '/'] + ":page" == "b/:page"
    ensures ['a', '/'] + "2" == "a/2" && ['a', '/'] + "1" == "a/1"
    ensures ['b', '/'] + "2" == "b/2" && ['b', '/'] + "1" == "b/1"
  {
  }

  lemma ExampleRowsFor(env: Host, c: char)
    ensures Expand(env, [c, '/'] + ":page", ["page"], [Str("2")]) == Permutated([c, '/'] + "2", Record([Entry("page", Str("2"))]))
    ensures Expand(env, [c, '/'] + ":page", ["page"], [Str("1")]) == Permutated([c, '/'] + "1", Record([Entry("page", Str("1"))]))
  {
    ExpandOne(env, [c, '/'] + ":page", c, "2");
    ExpandOne(env, [c, '/'] + ":page", c, "1");
  }

  lemma ExampleProduct(env: Host, urls: seq<string>, options: Record)
    requires |urls| == 2 && |options.entries| > 0
    requires ExtractParams(options).keys == ["page"]
    requires Permutations(ExtractParams(options).values) == [[Str("2")], [Str("1")]]
    ensures PermutateUrls(env, urls, options)
            == Ok([Expand(env, urls[0], ["page"], [Str("2")]), Expand(env, urls[0], ["page"], [Str("1")]),
                   Expand(env, urls[1], ["page"], [Str("2")]), Expand(env, urls[1], ["page"], [Str("1")])])
  {
    assert urls == [urls[0], urls[1]];
    ProductTwoByTwo(urls[0], urls[1], [Str("2")], [Str("1")], (url, perm) => Expand(env, url, ["page"], perm));
  }

  lemma ExampleCombinations(options: Record)
    requires options == Record([Entry("page", Arr([Str("1"), Str("2")]))])
    ensures ExtractParams(options).keys == ["page"]
    ensures Permutations(ExtractParams(options).values) == [[Str("2")], [Str("1")]]
  {
    var p := ExtractParams(options);
    assert p.keys == ["page"];
    assert p.values == [[Str("1"), Str("2")]];
    var vs := p.values;
    assert vs[0] == [Str("1"), Str("2")] && |vs| == 1;
    assert Walk(vs, 0, [], 0) == [];
    assert [] + [vs[0][0]] == [Str("1")] && [] + [vs[0][1]] == [Str("2")];
    assert Walk(vs, 0, [], 1) == [[Str("1")]];
    assert Walk(vs, 0, [], 2) == [[Str("2")], [Str("1")]];
  }

  /** The placeholder ":page" first occurs after a two-letter prefix "c/". */
  lemma SkipTwo(s: string, c: char)
    requires s == [c, '/'] + ":page"
    ensures IndexOf(s, ":page") == Some(2)
  {
    assert s[0..5][0] == c && s[1..6][0] == '/';
    assert s[2..7] == ":page";
    assert IndexFrom(s, ":page", 2) == Some(2);
  }

  lemma ExpandOne(env: Host, url: string, c: char, v: string)
    requires url == [c, '/'] + ":page" && '$' !in v
    ensures Expand(env, url, ["page"], [Str(v)]) == Permutated([c, '/'] + v, Record([Entry("page", Str(v))]))
  {
    assert Placeholder("page") == ":page";
    assert ToJsString(env, At([Str(v)], 0)) == v;
    SkipTwo(url, c);
    assert url[..2] == [c, '/'] && url[7..] == "";
    assert ReplaceFirst(url, ":page", v) == [c, '/'] + v;
    assert EmptyRecord.Set("page", Str(v)) == Record([Entry("page", Str(v))]);
    assert ["page"][1..] == [];
    assert Fill(env, url, EmptyRecord, ["page"], [Str(v)])
        == Fill(env, [c, '/'] + v, Record([Entry("page", Str(v))]), [], []);
  }
}

=== FILE: values.dfy ===
/** JavaScript values as the scraper produces and stores them, and plain
    objects as ordered property lists. */
module Values {
  import opened Results
  import opened Seqs

  /** A JavaScript number: a finite double taken as a real, an infinity, or NaN. */
  datatype Number = NaN | Finite(r: real) | Infinity(negative: bool)

  datatype Value =
    | Undefined
    | Null
    | Bool(b: bool)
    | Num(n: Number)
    | Str(s: string)
    | DateObj(time: Number)   // a Date object, by its time value
    | Arr(items: seq<Value>)
    | Obj(fields: Record)

  /** One own property of a plain object. */
  datatype Entry = Entry(key: string, value: Value)

  /** A plain object: its own properties in insertion order. */
  datatype Record = Record(entries: seq<Entry>) {

    function Keys(): seq<string> {
      KeysOf(entries)
    }

    /** `obj[k]`, with None for a property the object does not have. */
    function Get(k: string): Option<Value> {
      Find(entries, k)
    }

    /** `obj[k] = v`: an existing property is overwritten in place, a new
        one is appended after the others. */
    function Set(k: string, v: Value): (r: Record)
      ensures r.Get(k) == Some(v)
      ensures forall k' :: k' != k ==> r.Get(k') == Get(k')
      ensures r.Keys() == if k in Keys() then Keys() else Keys() + [k]
    {
      StoreKeys(entries, k, v);
      Record(Store(entries, k, v))
    }
  }

  const EmptyRecord := Record([])

  /** JavaScript truthiness (`!!v`). */
  predicate Truthy(v: Value) {
    match v
    case Undefined => false
    case Null => false
    case Bool(b) => b
    case Num(n) => n != NaN && n != Finite(0.0)
    case Str(s) => s != ""
    case _ => true
  }

  function KeysOf(es: seq<Entry>): (ks: seq<string>)
    ensures |ks| == |es|
    ensures forall i :: 0 <= i < |es| ==> ks[i] == es[i].key
    decreases |es|
  {
    if |es| == 0 then [] else [es[0].key] + KeysOf(es[1..])
  }

  /** The value of the first property named k. */
  function Find(es: seq<Entry>, k: string): (o: Option<Value>)
    ensures o.None? <==> k !in KeysOf(es)
    ensures o.Some? ==> Entry(k, o.value) in es
    decreases |es|
  {
    if |es| == 0 then None
    else if es[0].key == k then Some(es[0].value)
    else Find(es[1..], k)
  }

  function Store(es: seq<Entry>, k: string, v: Value): (es': seq<Entry>)
    ensures Find(es', k) == Some(v)
    ensures forall k' :: k' != k ==> Find(es', k') == Find(es, k')
    decreases |es|
  {
    if |es| == 0 then [Entry(k, v)]
    else if es[0].key == k then
      FindCons(Entry(k, v), es[1..]);
      FindCons(es[0], es[1..]);
      assert es == [es[0]] + es[1..];
      [Entry(k, v)] + es[1..]
    else
      var rest := Store(es[1..], k, v);
      FindCons(es[0], rest);
      FindCons(es[0], es[1..]);
      assert es == [es[0]] + es[1..];
      [es[0]] + rest
  }

  /** Storing keeps the key order, appending a key the object did not have. */
  lemma {:induction false} StoreKeys(es: seq<Entry>, k: string, v: Value)
    ensures KeysOf(Store(es, k, v)) == if k in KeysOf(es) then KeysOf(es) else KeysOf(es) + [k]
    decreases |es|
  {
    if |es| > 0 {
      assert es == [es[0]] + es[1..];
      ConsEntry(es[0], es[1..]);
      if es[0].key == k {
        ConsEntry(Entry(k, v), es[1..]);
      } else {
        var tail := KeysOf(es[1..]);
        var rest := Store(es[1..], k, v);
        assert Store(es, k, v) == [es[0]] + rest;
        StoreKeys(es[1..], k, v);
        ConsEntry(es[0], rest);
        assert KeysOf(es) == [es[0].key] + tail;
        if k in tail {
          assert k in KeysOf(es);
        } else {
          assert k !in KeysOf(es);
          assert KeysOf(rest) == tail + [k];
          assert [es[0].key] + (tail + [k]) == ([es[0].key] + tail) + [k];
        }
      }
    }
  }

  /** Reading and listing the keys of an object with one more property in front. */
  lemma ConsEntry(e: Entry, es: seq<Entry>)
    ensures KeysOf([e] + es) == [e.key] + KeysOf(es)
  {
    assert ([e] + es)[1..] == es;
  }

  lemma FindCons(e: Entry, es: seq<Entry>)
    ensures forall k :: Find([e] + es, k) == if e.key == k then Some(e.value) else Find(es, k)
  {
    assert ([e] + es)[1..] == es;
  }

  /** An object is empty (`_.isEmpty`) exactly when it has no property at all. */
  lemma EmptyIffNoProperty(r: Record)
    ensures |r.entries| == 0 <==> forall k :: r.Get(k).None?
  {
    if |r.entries| > 0 {
      assert r.Keys()[0] == r.entries[0].key;
      assert r.Get(r.entries[0].key).Some?;
    }
  }

  /** In an object whose keys are distinct, every property is read back by its own key. */
  lemma {:induction false} FindDistinct(es: seq<Entry>, i: nat)
    requires i < |es| && Distinct(KeysOf(es))
    ensures Find(es, es[i].key) == Some(es[i].value)
    decreases |es|
  {
    if i > 0 {
      var ks := KeysOf(es);
      assert ks[0] == es[0].key && ks[i] == es[i].key;
      var ks' := KeysOf(es[1..]);
      forall a, b | 0 <= a < b < |ks'|
        ensures ks'[a] != ks'[b]
      {
        assert ks'[a] == ks[a + 1] && ks'[b] == ks[b + 1];
      }
      assert es[1..][i - 1] == es[i];
      FindDistinct(es[1..], i - 1);
    }
  }
}
